=== FILE: README.md ===
# Arcade driving game: the per-frame simulation, in Dafny

The game: a car at the bottom of the window steers left and right between
falling obstacles, collects falling fuel cans and bonus items (star, shield,
coin), and plays against a countdown. This project models the gameplay core —
the `Gameplay.Update` and `Gameplay.HandleInput` frame step with all their
helpers, and the `Car`, `Obstacle` and `Fuel` entity classes — as pure
functions over an immutable session record, and proves what one frame and any
sequence of frames guarantee.

Files, one module each: `seqs.dfy` (helpers), `rng.dfy` (`Random.Next`),
`sprites.dfy` (window and image sizes, collision bodies), `car.dfy`,
`obstacle.dfy`, `fuel.dfy`, `bonus.dfy` (the nested `Bonus` class and its
weighted roll), `gameplay.dfy` (state, every `Update` stage, `HandleInput`,
`Step`, `Run`) and `properties.dfy` (the session invariant and multi-frame laws).

How the outside world enters the model:

- **Timers.** Each SplashKit timer is a natural number of milliseconds in the
  `Timers` record. Inside one `Update` the readings are a snapshot, and a
  reset writes 0. Time passes between frames through `AdvanceClock`, which
  advances all eight timers together, or none while paused.
- **Collisions.** The pixel-mask test `BitmapCollision` is a per-frame oracle
  `Collides = (Body, Body) -> bool`. It is asked about the car's body and the
  entity's body at their positions at the moment the source asks.
- **Randomness.** Each call of `Random.Next(lo, hi)` is `Rng.Next(lo, hi, draw)`
  with an arbitrary natural `draw`. `SplashKit.Rnd() * 100 <= 50` becomes the
  boolean `fuelBelowHalf`.
- **Image sizes.** Bitmap widths and heights come from image files, so they
  are fields of `Config`, together with the window size.

Some behaviours of the code are easy to misread; the model keeps each of them:

- The ten-second difficulty step fires on every frame of that second, not
  once per mark (Gameplay.cs:271-272).
- Spawn positions for obstacles and fuel cans are not clamped.
  `Obstacle` and `Fuel` call `Random.Next(200, W - w - 200)`, which throws
  when `W - w < 400`. Only `Bonus` clamps its range (Gameplay.cs:108).
- Obstacles never speed up. Under frame-constant timers the speed-step guard
  (Gameplay.cs:309) can never be true, because `TrySpawnObstacle` has just
  reset the same timer or found it not past the interval. Every obstacle
  keeps speed 5, and `Gameplay.ObstaclePhase` proves it. If the guard could
  fire, the cap of 30 is tested before the step, so the speed would stop at
  32 (`GameplayProperties.AcceleratedSpeed`).
- Coin points do not persist. The last line of `Update` (Gameplay.cs:225)
  overwrites the score with the elapsed seconds, so a coin's gain is lost
  within the same frame (`GameplayProperties.CoinGainOverwritten`).
- When the fuel loop finds the first can touching the car, it `break`s. The
  cans after it in the list do not fall on that frame (`Gameplay.FuelPass`).
- The interval shrink `(int)Math.Max(floor, x * 0.95)` is modelled as
  `Max(floor, Shrink(x))`, where `Shrink` is 95x / 100 on integers, truncated
  toward zero like the C# cast. The two agree for every interval: 0.95 as a
  double is below 0.95 by about 4.4e-17, so when 0.95x is whole the double
  product still rounds to it, and otherwise its fractional part is a multiple
  of 0.05, far from the truncation point.

## Model

| member | source | states |
|---|---|---|
| Seqs.Filter | Gameplay.cs:321-322 | `RemoveAll` keeps exactly the elements passing the test, as a subsequence of the input, each kept value as often as in the input and every other value not at all |
| Seqs.FilterUnique | Gameplay.cs:321-322 | any subsequence with exactly those multiplicities is `Filter`'s result, so order and multiplicity together pin the cleanup down |
| Seqs.FilterConcat | Gameplay.cs:321-322 | cleaning up a concatenation cleans up each part, in order |
| Rng.Next | Obstacle.cs:35 | `Random.Next(lo, hi)` yields a value in [lo, hi), or lo when lo == hi; lo <= hi is required, as .NET throws otherwise |
| Rng.EveryValueDrawable | Obstacle.cs:45 | every value of a legal range is the outcome of some draw |
| Cars.HalfTowardZero | Car.cs:25 | C# halving truncates toward zero: n - 2r is 0, or 1 for non-negative n and -1 for negative n |
| Cars.New | Car.cs:10-28 | a new car has 15 fuel and sits 20 px above the bottom edge; x is (W - w) / 2 truncated toward zero, so the left and right gaps differ by at most one pixel; it is the F1 car exactly when the type is "F1" |
| Cars.UnknownTypeFallsBack | Car.cs:21-23 | an unrecognised car type does not fail; it builds the same car as "Racing" (racing_car.png) |
| Cars.SteerLeft | Car.cs:41-44 | moves exactly 7 left iff left is held and x > 0; otherwise changes nothing; only x is touched |
| Cars.SteerRight | Car.cs:45-48 | moves exactly 7 right iff right is held and x < W - w; otherwise changes nothing; only x is touched |
| Cars.HandleInput | Car.cs:39-49 | only x changes, by -7, 0 or +7; with no key held nothing changes; with only left held and x > 0 the car moves 7 left, with only right held and x < W - w it moves 7 right; a move left implies left held and x > 0, a move right implies right held and x < W - w before the move |
| Cars.SteeringStaysNearWindow | Car.cs:39-49 | raw steering keeps x within [-6, W - w + 6]: it overshoots either edge by at most one partial step |
| Cars.BothArrowsCancel | Car.cs:41-48 | with both arrows held and 0 < x <= W - w, the right test sees the moved x, so the car stays where it was |
| Cars.StayOnWindow | Car.cs:51-56 | only x changes; when W - w >= 360 the result lies in [180, W - w - 180]; an x already there is unchanged; on a narrower window x ends at W - w - 180 |
| Cars.StayOnWindowIsNearestClamp | Car.cs:51-56 | on a non-empty lane the result is min(max(x, 180), W - w - 180), the lane position closest to x |
| Cars.StayOnWindowIdempotent | Car.cs:51-56 | clamping twice equals clamping once, for every window size |
| Cars.Refuel | Car.cs:78-81 | fuel rises by exactly the amount, with no upper clamp; nothing else changes |
| Obstacles.PickVariant | Obstacle.cs:43-55 | the chosen image number is always 1, 2 or 3 |
| Obstacles.EveryVariantDrawable | Obstacle.cs:45 | each of the three images can be drawn |
| Obstacles.New | Obstacle.cs:29-38 | a new obstacle has speed 5, image 1..3, its bottom edge at the window top (y = -height), and x in [200, W - w - 200) for its own image; the range must be legal |
| Obstacles.Update | Obstacle.cs:57-60 | y grows by the current speed; x, speed and image are unchanged |
| Fuels.RefuelAmount | Fuel.cs:57-66 | a small can refuels 5, a large one 10 |
| Fuels.New | Fuel.cs:22-30 | a new can has the requested kind, y = -height, and x in [200, W - w - 200); the range must be legal; it starts on screen |
| Fuels.Update | Fuel.cs:32-35 | y grows by exactly 5, x unchanged |
| Fuels.Fall | Fuel.cs:32-35 | n frames move a can down exactly 5n px and change nothing else |
| Fuels.FramesOnScreen | Fuel.cs:42-45 | the number of falls after which a can is first off screen (y > window height): off screen after that many, on screen after any fewer |
| Bonuses.Roll | Gameplay.cs:365 | the roll lies in [0, 100) |
| Bonuses.CountRollsPrefix | Gameplay.cs:366 | among rolls 0..n-1, coins take the first 45, stars the next 30, shields the rest |
| Bonuses.RollOdds | Gameplay.cs:365-366 | of the 100 rolls, 45 give a coin, 30 a star and 25 a shield |
| Bonuses.KindOfRoll | Gameplay.cs:366 | the three kinds split the rolls into ranges: a coin iff the roll is below 45, a star iff it is in [45, 75), a shield iff it is 75 or more |
| Bonuses.New | Gameplay.cs:103-110 | x lies in [180, max(180, W - w - 180)], so the range is never illegal; on a wide enough window the bonus fits inside the margins; y = -height; it starts on screen |
| Bonuses.Update | Gameplay.cs:112 | y grows by exactly 3, x unchanged |
| Bonuses.Fall | Gameplay.cs:112 | n frames move a bonus down exactly 3n px and change nothing else |
| Bonuses.FramesOnScreen | Gameplay.cs:114 | the number of falls after which a bonus is first off screen (y > window height): off screen after that many, on screen after any fewer |
| Gameplay.AdvanceClock | Gameplay.cs:161-182 | while paused no timer moves; otherwise all eight timers advance by the same dt and nothing else changes |
| Gameplay.HandleInput | Gameplay.cs:156-186 | P flips the paused flag; the car steers only if the game is unpaused after the flip; nothing else, timers included, changes |
| Gameplay.Shrink | Gameplay.cs:274-275 | the result is 95 % of the interval truncated toward zero, the C# cast: 100r <= 95x < 100r + 100 for x >= 0, and the mirror image below 0 |
| Gameplay.ShrinkBounds | Gameplay.cs:274-275 | the 0.95 shrink never raises an interval and strictly lowers any interval of 20 ms or more |
| Gameplay.AdjustDifficulty | Gameplay.cs:269-283 | only the two intervals change, and only on a positive multiple of ten elapsed seconds; they never rise or drop below 500 / 1500, and they strictly drop on a mark while above the floor |
| Gameplay.TrySpawnObstacle | Gameplay.cs:285-292 | when the obstacle timer exceeds the interval, exactly one new obstacle is appended and the timer reset; otherwise nothing changes; afterwards the timer never exceeds the interval |
| Gameplay.TrySpawnFuel | Gameplay.cs:294-301 | as for obstacles, with the fuel timer, interval and the small/large draw |
| Gameplay.RandomFuelKind | Gameplay.cs:517-518 | the draw `Rnd() * 100 <= 50` gives the small can, worth 5 fuel, and any other draw the large one, worth 10 |
| Gameplay.TrySpawnBonus | Gameplay.cs:361-378 | a bonus of the rolled kind is appended and the bonus timer reset iff that timer exceeds 8000 and more than 5 whole seconds have elapsed; otherwise nothing changes |
| Gameplay.Accelerate | Gameplay.cs:309-310 | the speed grows by exactly 3 when the signal holds and it is below 30, and changes in no other case; the obstacle is otherwise unchanged |
| Gameplay.Penalise | Gameplay.cs:312-317 | fuel drops by 5, floored at 0; a "-5 Fuel" text is added; the hit timer restarts, which closes the cooldown gate |
| Gameplay.ObstaclePass | Gameplay.cs:305-318 | every obstacle falls and may speed up; the pass applies the penalty exactly once if the shield is off, the hit timer is at least 800 and some moved obstacle touches the car; otherwise it changes nothing |
| Gameplay.UpdateObstacles | Gameplay.cs:303-319 | every obstacle falls by its speed and speeds up only when the obstacle timer is past the interval; if the shield is off, the hit timer is at least 800 and some moved obstacle touches the car, the session is exactly the penalised one (fuel max(0, fuel - 5), hit timer 0, one "-5 Fuel" text); otherwise nothing but the obstacles changes; the obstacle count is kept |
| Gameplay.CleanupObstacles | Gameplay.cs:321-322 | exactly the obstacles with y <= window height remain, in their original order (a subsequence) and each as often as before |
| Gameplay.FirstPickup | Gameplay.cs:327-345 | the index of the first can that touches the car after falling, or the list length if none does |
| Gameplay.TimeBonus | Gameplay.cs:336 | a pickup of 10 fuel or more earns the large bonus of 6 s, and any smaller one the small bonus of 3 s |
| Gameplay.Fallen | Gameplay.cs:329 | every can after one `Fuel.Update`, same length and order |
| Gameplay.Collect | Gameplay.cs:330-340 | fuel rises by the can's amount; the time budget rises by 6 for a large can and 3 for a small one; exactly two texts are appended, "+N Fuel" 20 px and "+Ts" 40 px above the car, T being the budget gained |
| Gameplay.FuelPass | Gameplay.cs:327-345 | with no touching can, all cans fall and nothing else changes; otherwise only the first touching can is consumed, the cans before it fall, the cans after it stay put, and exactly one `Collect` happens |
| Gameplay.Aged | Gameplay.cs:350-351 | one frame takes 16 from a text's lifetime and moves it 1 px up; caption and x are kept |
| Gameplay.AgedTimes | Gameplay.cs:348-354 | after n frames a text has lost 16n of its lifetime and risen n px |
| Gameplay.TextShownFrames | Gameplay.cs:348-354 | a text created with the default lifetime of 1000 is still alive after n agings iff n <= 62 |
| Gameplay.AgeTexts | Gameplay.cs:348-354 | the survivors are the aged texts (16 ms less, 1 px up) with positive lifetime, in their original order and with duplicates kept: the aged list filtered by "still alive" |
| Gameplay.AgeTextsMembers | Gameplay.cs:348-354 | every surviving text has a positive lifetime and is some input text aged once, and every text with lifetime above 16 survives aged |
| Gameplay.PickupStage | Gameplay.cs:327-345 | the pickup loop on the session: with no touching can every can falls and car, budget and texts are kept; otherwise exactly the first touching can is collected (refuel, time bonus, its two texts) and removed, the cans before it fall and the cans after it stay put |
| Gameplay.UpdateFuels | Gameplay.cs:325-355 | at most one can is consumed per frame: with no touching can every can falls and the car and budget are unchanged; otherwise the first touching can is removed with its refuel and time bonus, the cans before it fall and the cans after it stay put; the texts are the ones before the frame, plus the two pickup texts if a can was taken, then aged and filtered |
| Gameplay.CleanupFuels | Gameplay.cs:357-358 | exactly the cans that are not off-screen (y <= window height) remain, in their original order and each as often as before |
| Gameplay.ApplyBonus | Gameplay.cs:406-428 | a star turns double score on and restarts its timer; a shield turns the shield on and restarts its timer; a coin adds 200 with double score active, else 100; exactly one text is appended 30 px above the car: "Double Score (10s)", "Shield (5s)" or "+N Points" with the points just added; nothing else changes |
| Gameplay.Missed | Gameplay.cs:382-394 | the bonuses that, after falling, do not touch the car, in list order and with their multiplicity: the fallen list filtered by "does not touch" |
| Gameplay.MissedMembers | Gameplay.cs:382-394 | every kept bonus is some input bonus after one `Bonus.Update` and misses the car, and every fallen bonus that misses the car is kept |
| Gameplay.ShieldPickup | Gameplay.cs:387-392 | when a shield touches the car after its fall, the loop leaves the shield on with its timer at 0; when none does, the shield flag and its timer are as before |
| Gameplay.StarPickup | Gameplay.cs:387-392 | when a star touches the car after its fall, double score is on with its timer at 0; when none does, the flag and its timer are as before |
| Gameplay.CoinPickup | Gameplay.cs:387-392 | the score rises by at least 100 when a coin touches the car after its fall, and is unchanged when none does |
| Gameplay.BonusPass | Gameplay.cs:382-394 | the kept bonuses are exactly those missed by the car; one text per collected bonus; the score never falls; the car and all other state are unchanged |
| Gameplay.ExpireBuffs | Gameplay.cs:396-400 | double score stays on iff its timer is below 10000; the shield stays on iff its timer is below 5000 |
| Gameplay.UpdateBonuses | Gameplay.cs:380-401 | a picked-up shield or star is on afterwards with its timer at 0; a buff not picked up keeps its timer and stays on iff it was on and not expired (5000 / 10000 ms); the score changes only when a coin is picked up; an active buff never has an expired timer; car, obstacles, fuel, budget and reason are untouched |
| Gameplay.CleanupBonuses | Gameplay.cs:403-404 | exactly the bonuses that are not off-screen remain, in their original order and each as often as before |
| Gameplay.ApplyTimeoutRule | Gameplay.cs:430-435 | the reason becomes "Time out" when the elapsed whole seconds exceed the time budget; otherwise nothing changes |
| Gameplay.ApplyFuelDrainRule | Gameplay.cs:437-444 | once a whole second is on the drain timer, fuel drops by 2 floored at 0 and the timer restarts; otherwise nothing changes |
| Gameplay.ApplyOutOfFuelRule | Gameplay.cs:220-223 | an empty tank sets the reason "Game over", overriding a timeout; otherwise nothing changes |
| Gameplay.PrepareFrame | Gameplay.cs:199-201 | the car becomes exactly its lane-clamped self (`StayOnWindow`), the ratchet changes only the intervals under its laws, and nothing else changes |
| Gameplay.ObstaclePhase | Gameplay.cs:202-206 | at most one penalty and none with the shield up; if the gate is open and an obstacle already on the road touches the car after its fall, the penalty is applied: fuel max(0, fuel - 5), hit timer 0, the "-5 Fuel" text; otherwise the hit timer is kept; the intervals are not changed; obstacles that all had speed 5 still do afterwards |
| Gameplay.SpawnSpeedKept | Gameplay.cs:285-311 | the speed-step guard reads the obstacle timer just after the spawn test reset it or found it not past the interval, so moved obstacles keep speed 5 |
| Gameplay.SpawnedHitPenalised | Gameplay.cs:285-317 | spawning only appends and does not speed the obstacles on the road, so one of them touching the car after its fall, with the gate open, makes `UpdateObstacles` apply exactly the penalty |
| Gameplay.PhaseHitPenalised | Gameplay.cs:202-206 | the same penalty survives the obstacle clean-up: fuel max(0, fuel - 5), hit timer 0, the "-5 Fuel" text appended |
| Gameplay.FuelPhase | Gameplay.cs:208-209 | the fuel stages never lower fuel or the time budget |
| Gameplay.BonusPhase | Gameplay.cs:211-213 | the bonus stages leave the car, obstacles, cans, budget and reason alone, and leave no expired buff active |
| Gameplay.EndOfFrame | Gameplay.cs:217-225 | the score becomes the elapsed whole seconds; fuel drops by at most one drain tick; from no reason, the reason is "Game over" iff the tank is empty, else "Time out" iff the elapsed seconds exceed the budget |
| Gameplay.Simulate | Gameplay.cs:199-225 | a full frame: the score equals the elapsed seconds, coin or not; the reason follows the final fuel and budget; fuel falls by at most 5 + 2, and by at most 2 with the shield up; the intervals follow the ratchet; obstacle speeds stay 5; the hit timer is kept or restarted by a penalty whose gate was open, and it is restarted when the gate is open and an obstacle on the road touches the lane-clamped car |
| Gameplay.Update | Gameplay.cs:188-197 | a no-op while paused or after game over; a pending reason sets game over and does nothing else; the game timer and pause flag are never changed; the hit timer is restarted only by a penalty with the gate open |
| Gameplay.Step | Program.cs:15-21 | one pass of the main loop: the pause flag ends flipped iff P was typed; the game timer gains dt iff the session was unpaused as the frame began; a finished game stays finished with its reason |
| Gameplay.Run | Program.cs:15-21 | over any sequence of frames the game timer gains exactly the unpaused time, and a finished game stays finished with its reason |
| Gameplay.NewGame | Gameplay.cs:59-154 | a new session: the car as `Car` builds it, no obstacles, cans, bonuses or texts, every timer at 0, no reason, score 0, a 15 s budget, intervals 1000 / 2500, not paused, both buffs off |
| GameplayProperties.NewGameSatisfiesInv | Gameplay.cs:59-68 | the initial session satisfies the invariant and is not over |
| GameplayProperties.UpdatePreservesInv | Gameplay.cs:188-226 | `Update` keeps fuel >= 0, intervals within [500, 1000] and [1500, 2500], obstacle speeds at 5, budget >= 15, and game over only with a reason |
| GameplayProperties.StepPreservesInv | Gameplay.cs:156-226 | one frame (time passes, input, update) keeps the invariant |
| GameplayProperties.RunPreservesInv | Gameplay.cs:156-226 | any sequence of frames keeps the invariant; in particular fuel is never negative |
| GameplayProperties.GameOverIsTerminal | Gameplay.cs:190 | once game over is set, no sequence of frames clears it or changes the reason, score, fuel, entities or budget |
| GameplayProperties.ReasonEndsGameNextFrame | Gameplay.cs:192-197 | a pending reason ends the game on the next frame that is not paused |
| GameplayProperties.PauseTwiceRestores | Gameplay.cs:158-160 | typing P twice gives back exactly the same state |
| GameplayProperties.PauseFreezesTimers | Gameplay.cs:158-182 | pause, any wait, resume: every timer reads as before the pause |
| GameplayProperties.PausedFrameChangesNothing | Gameplay.cs:185-190 | a paused frame without P changes nothing, neither the pause flag nor the car |
| GameplayProperties.PenaltyCooldown | Gameplay.cs:312-316 | across any run of frames, while the hit timer plus the unpaused time stays below 800 ms no penalty is applied and the timer only counts up; after a penalty (timer 0) the next needs 800 ms of play |
| GameplayProperties.IntervalRatchet | Gameplay.cs:269-283 | over a whole `Update`, the intervals change only on a ten-second mark, never rise, never pass the floors, and drop on a mark while above them |
| GameplayProperties.AcceleratedSpeed | Gameplay.cs:309-310 | if the step could fire every frame, the speed from 5 would be min(5 + 3n, 32): the cap of 30 is overshot by 2 |
| GameplayProperties.CoinGainOverwritten | Gameplay.cs:225 | after a simulated frame the score is the elapsed whole seconds, so any coin collected in it is lost |

## Left out

- Drawing is left out because it is presentation: `Draw`, `DrawHud` (with its floating-point fuel-bar percentage), `DrawCenteredText`, `ShowGameOverOnce` with its 2500 ms delay, the pause overlay, and `ScrollBackground`. Floating texts keep a caption but no colour, since the colour follows from the caption.
- Bitmap loading and `BitmapCollision` are foreign SplashKit calls. They become image sizes in `Config` and the `Collides` oracle.
- SplashKit timers, `KeyDown`/`KeyTyped`, `Random` and `SplashKit.Rnd` are collaborators, so they become frame inputs: timer snapshots, key booleans and draws. The timers' unsigned 32-bit wrap-around, after about 49 days, is not modelled.
- Gameplay.Update: requires every obstacle image and both fuel images to fit the road (`RoadFits`). The source throws only when it actually spawns an entity whose image does not fit; the model does not represent that exception.
- `Quit` (the Escape key), the console car-selection prompt and the window of Program.cs are left out, because they are I/O. `Step` models one pass of the main loop (Program.cs:15-21): time passes, then `HandleInput`, then `Update`.
- Gameplay.Run: applies every frame it is given, also after game over, where the main loop would have stopped. `GameplayProperties.GameOverIsTerminal` shows those extra frames leave the outcome (reason, score, fuel, entities and time budget) unchanged.

=== FILE: bonus.dfy ===
/** Bonus items (star, shield, coin): the nested `Bonus` class of the gameplay
    code and the weighted roll that picks their kind. */
module Bonuses {
  import opened Seqs
  import opened Sprites
  import Rng

  /** Pixels a bonus falls per frame (its `Speed` field, never changed). */
  const Speed := 3
  /** Distance kept from each window edge when a bonus is placed. */
  const Margin := 180

  datatype Bonus = Bonus(kind: BonusKind, x: int, y: int)

  function Image(b: Bonus): Sprite
  {
    BonusImage(b.kind)
  }

  function BodyOf(b: Bonus): Body
  {
    Body(Image(b), b.x, b.y)
  }

  /** `Random.Next(100)`. */
  function Roll(draw: nat): (r: int)
    ensures 0 <= r < 100
  {
    Rng.Next(0, 100, draw)
  }

  /** The weighted choice: below 45 a coin, below 75 a star, otherwise a shield. */
  function KindOfRoll(roll: int): (k: BonusKind)
    ensures k == Coin <==> roll < 45
    ensures k == Star <==> 45 <= roll < 75
    ensures k == Shield <==> 75 <= roll
  {
    if roll < 45 then Coin else if roll < 75 then Star else Shield
  }

  /** How many of the rolls 0, 1, ..., n - 1 pick `kind`. */
  function CountRolls(kind: BonusKind, n: nat): nat
  {
    if n == 0 then 0 else CountRolls(kind, n - 1) + (if KindOfRoll(n - 1) == kind then 1 else 0)
  }

  /** Among the first n rolls, coins take the first 45, stars the next 30 and
      shields the rest. */
  lemma {:induction false} CountRollsPrefix(n: nat)
    requires n <= 100
    ensures CountRolls(Coin, n) == Min(n, 45)
    ensures CountRolls(Star, n) == Min(Max(n - 45, 0), 30)
    ensures CountRolls(Shield, n) == Max(n - 75, 0)
  {
    if n > 0 {
      CountRollsPrefix(n - 1);
    }
  }

  /** Of the hundred equally likely rolls, 45 give a coin, 30 a star and 25 a shield. */
  lemma RollOdds()
    ensures CountRolls(Coin, 100) == 45
    ensures CountRolls(Star, 100) == 30
    ensures CountRolls(Shield, 100) == 25
  {
    CountRollsPrefix(100);
  }

  /** The right-hand end of the range bonuses are placed in. */
  function LaneRight(cfg: Config, kind: BonusKind): int
  {
    cfg.width - Width(cfg, BonusImage(kind)) - Margin
  }

  /** `new Bonus(...)`: x from `Random.Next(180, Max(180, laneRight + 1))`, so the
      range is never illegal, whatever the window size; just above the top edge. */
  function New(cfg: Config, kind: BonusKind, xDraw: nat): (b: Bonus)
    ensures b.kind == kind
    ensures b.y + Height(cfg, Image(b)) == 0
    ensures Margin <= b.x <= Max(Margin, LaneRight(cfg, kind))
    ensures Margin <= LaneRight(cfg, kind) ==> b.x + Width(cfg, Image(b)) + Margin <= cfg.width
    ensures !Offscreen(cfg, b)
  {
    var d := DimsOf(cfg, BonusImage(kind));
    Bonus(kind, Rng.Next(Margin, Max(Margin, cfg.width - d.width - Margin + 1), xDraw), -(d.height as int))
  }

  /** `Bonus.Update`: three pixels down. */
  function Update(b: Bonus): (r: Bonus)
    ensures r == b.(y := r.y)
    ensures r.y - b.y == Speed
  {
    b.(y := b.y + Speed)
  }

  /** `Offscreen`: the top edge has passed the bottom of the window. */
  predicate Offscreen(cfg: Config, b: Bonus)
  {
    b.y > cfg.height
  }

  /** `n` frames of `Update`. */
  function Fall(b: Bonus, n: nat): (r: Bonus)
    ensures r == b.(y := b.y + Speed * n)
  {
    if n == 0 then b else Update(Fall(b, n - 1))
  }

  /** The number of `Update`s after which the bonus is off screen for the first
      time, and so removed by the clean-up of that frame. */
  function FramesOnScreen(cfg: Config, b: Bonus): (n: nat)
    ensures Offscreen(cfg, Fall(b, n))
    ensures forall k: nat :: k < n ==> !Offscreen(cfg, Fall(b, k))
  {
    if b.y > cfg.height then 0 else (cfg.height - b.y) / Speed + 1
  }
}

=== FILE: car.dfy ===
/** The player's car: a position, a fuel level and the image it is drawn with. */
module Cars {
  import opened Seqs
  import opened Sprites

  const InitialFuel := 15
  const SteerStep := 7
  /** Distance kept from each window edge by `StayOnWindow`. */
  const LaneMargin := 180
  /** Gap between the car's bottom edge and the window's bottom edge at start. */
  const BottomGap := 20

  datatype Car = Car(kind: CarKind, x: int, y: int, fuel: int)

  /** The constructor's switch: "F1" loads f1_car.png, "Racing" and the fallback
      branch both load racing_car.png. */
  function KindOf(carType: string): CarKind
  {
    if carType == "F1" then F1 else Racing
  }

  function Image(c: Car): Sprite
  {
    CarImage(c.kind)
  }

  function BodyOf(c: Car): Body
  {
    Body(Image(c), c.x, c.y)
  }

  /** C# integer division by two, which truncates toward zero. */
  function HalfTowardZero(n: int): (r: int)
    ensures n - 2 * r == 0 || n - 2 * r == (if n >= 0 then 1 else -1)
  {
    if n >= 0 then n / 2 else -((-n) / 2)
  }

  /** `new Car(window, carType)`: centred horizontally, 20 pixels above the
      bottom edge, with 15 units of fuel. */
  function New(cfg: Config, carType: string): (c: Car)
    ensures c.fuel == InitialFuel
    ensures c.kind == F1 <==> carType == "F1"
    ensures c.y + Height(cfg, Image(c)) + BottomGap == cfg.height
    ensures var rightGap := cfg.width - Width(cfg, Image(c)) - c.x;
      -1 <= rightGap - c.x <= 1
    ensures c.x == HalfTowardZero(cfg.width - Width(cfg, Image(c)))
  {
    var kind := KindOf(carType);
    var d := DimsOf(cfg, CarImage(kind));
    Car(kind, HalfTowardZero(cfg.width - d.width), cfg.height - d.height - BottomGap, InitialFuel)
  }

  /** An unrecognised car type is not an error: it builds the same car as "Racing". */
  lemma UnknownTypeFallsBack(cfg: Config, carType: string)
    requires carType != "F1" && carType != "Racing"
    ensures New(cfg, carType) == New(cfg, "Racing")
  {
  }

  /** The right-hand bound of the raw steering guard. */
  function RightEdge(cfg: Config, c: Car): int
  {
    cfg.width - Width(cfg, Image(c))
  }

  /** Left arrow: seven pixels left, but only while x is positive. */
  function SteerLeft(c: Car, leftDown: bool): (r: Car)
    ensures r == c.(x := r.x)
    ensures r.x == c.x - SteerStep <==> leftDown && c.x > 0
    ensures r.x != c.x - SteerStep ==> r.x == c.x
  {
    if leftDown && c.x > 0 then c.(x := c.x - SteerStep) else c
  }

  /** Right arrow: seven pixels right, but only while x is left of `RightEdge`. */
  function SteerRight(cfg: Config, c: Car, rightDown: bool): (r: Car)
    ensures r == c.(x := r.x)
    ensures r.x == c.x + SteerStep <==> rightDown && c.x < RightEdge(cfg, c)
    ensures r.x != c.x + SteerStep ==> r.x == c.x
  {
    if rightDown && c.x < RightEdge(cfg, c) then c.(x := c.x + SteerStep) else c
  }

  /** `Car.HandleInput`: the left test runs first, the right test then sees the
      already-moved x. Only x changes, by at most one step. */
  function HandleInput(cfg: Config, c: Car, leftDown: bool, rightDown: bool): (r: Car)
    ensures r == c.(x := r.x)
    ensures r.x == c.x - SteerStep || r.x == c.x || r.x == c.x + SteerStep
    ensures !leftDown && !rightDown ==> r == c
    ensures r.x < c.x ==> leftDown && c.x > 0
    ensures r.x > c.x ==> rightDown && c.x < RightEdge(cfg, c)
    ensures leftDown && !rightDown && c.x > 0 ==> r.x == c.x - SteerStep
    ensures rightDown && !leftDown && c.x < RightEdge(cfg, c) ==> r.x == c.x + SteerStep
  {
    SteerRight(cfg, SteerLeft(c, leftDown), rightDown)
  }

  /** Steering alone never pushes the car more than one step past either window
      edge: the interval [-6, RightEdge + 6] is closed under `HandleInput`. */
  lemma SteeringStaysNearWindow(cfg: Config, c: Car, leftDown: bool, rightDown: bool)
    requires 1 - SteerStep <= c.x <= RightEdge(cfg, c) + SteerStep - 1
    ensures var r := HandleInput(cfg, c, leftDown, rightDown);
      1 - SteerStep <= r.x <= RightEdge(cfg, c) + SteerStep - 1
  {
  }

  /** Pressing both arrows at a position where both guards pass leaves the car in place. */
  lemma BothArrowsCancel(cfg: Config, c: Car)
    requires 0 < c.x <= RightEdge(cfg, c)
    ensures HandleInput(cfg, c, true, true) == c
  {
  }

  function Distance(a: int, b: int): nat
  {
    Abs(a - b)
  }

  /** The right-hand end of the playable lane. */
  function LaneRight(cfg: Config, c: Car): int
  {
    cfg.width - Width(cfg, Image(c)) - LaneMargin
  }

  /** `StayOnWindow`: raise x to 180, then lower it to the lane's right end. */
  function StayOnWindow(cfg: Config, c: Car): (r: Car)
    ensures r == c.(x := r.x)
    ensures LaneMargin <= LaneRight(cfg, c) ==> LaneMargin <= r.x <= LaneRight(cfg, c)
    ensures LaneMargin <= c.x <= LaneRight(cfg, c) ==> r == c
    ensures LaneRight(cfg, c) < LaneMargin ==> r.x == LaneRight(cfg, c)
  {
    var x1 := if c.x < LaneMargin then LaneMargin else c.x;
    var x2 := if x1 > LaneRight(cfg, c) then LaneRight(cfg, c) else x1;
    c.(x := x2)
  }

  /** On a lane that is not empty, `StayOnWindow` is the clamp into the lane and
      moves the car to the lane position nearest to where it was. */
  lemma StayOnWindowIsNearestClamp(cfg: Config, c: Car)
    requires LaneMargin <= LaneRight(cfg, c)
    ensures StayOnWindow(cfg, c).x == Min(Max(c.x, LaneMargin), LaneRight(cfg, c))
    ensures forall v :: LaneMargin <= v <= LaneRight(cfg, c) ==>
      Distance(StayOnWindow(cfg, c).x, c.x) <= Distance(v, c.x)
  {
    var r := StayOnWindow(cfg, c);
    forall v | LaneMargin <= v <= LaneRight(cfg, c)
      ensures Distance(r.x, c.x) <= Distance(v, c.x)
    {
      if c.x < LaneMargin {
        assert r.x == LaneMargin;
      } else if c.x > LaneRight(cfg, c) {
        assert r.x == LaneRight(cfg, c);
      } else {
        assert r.x == c.x;
      }
    }
  }

  /** Clamping twice is clamping once, even on a degenerate (too narrow) lane. */
  lemma StayOnWindowIdempotent(cfg: Config, c: Car)
    ensures StayOnWindow(cfg, StayOnWindow(cfg, c)) == StayOnWindow(cfg, c)
  {
  }

  /** `Refuel(amount)`: fuel grows by exactly `amount`, with no upper limit. */
  function Refuel(c: Car, amount: int): (r: Car)
    ensures r == c.(fuel := r.fuel)
    ensures r.fuel - c.fuel == amount
  {
    c.(fuel := c.fuel + amount)
  }
}

=== FILE: fuel.dfy ===
/** A falling fuel can, small or large. */
module Fuels {
  import opened Sprites
  import Rng

  /** Pixels a fuel can falls per frame. */
  const FallPerFrame := 5

  datatype Pickup = Pickup(kind: FuelKind, x: int, y: int)

  /** `RefuelAmount`, overridden by `FuelSmall` and `FuelLarge`. */
  function RefuelAmount(k: FuelKind): (a: int)
    ensures k == Small ==> a == 5
    ensures k == Large ==> a == 10
  {
    match k
    case Small => 5
    case Large => 10
  }

  function Image(p: Pickup): Sprite
  {
    FuelImage(p.kind)
  }

  function BodyOf(p: Pickup): Body
  {
    Body(Image(p), p.x, p.y)
  }

  /** The base constructor: x in [200, width - imageWidth - 200), just above the top edge. */
  function New(cfg: Config, kind: FuelKind, xDraw: nat): (p: Pickup)
    requires FitsRoad(cfg, FuelImage(kind))
    ensures p.kind == kind
    ensures p.y + Height(cfg, Image(p)) == 0
    ensures RoadMargin <= p.x
    ensures p.x < cfg.width - Width(cfg, Image(p)) - RoadMargin
         || p.x == RoadMargin == cfg.width - Width(cfg, Image(p)) - RoadMargin
    ensures !IsOffScreen(cfg, p)
  {
    var d := DimsOf(cfg, FuelImage(kind));
    Pickup(kind, Rng.Next(RoadMargin, cfg.width - d.width - RoadMargin, xDraw), -(d.height as int))
  }

  /** `Fuel.Update`: five pixels down, x unchanged. */
  function Update(p: Pickup): (r: Pickup)
    ensures r == p.(y := r.y)
    ensures r.y - p.y == FallPerFrame
  {
    p.(y := p.y + FallPerFrame)
  }

  /** `IsOffScreen`: the top edge has passed the bottom of the window. */
  predicate IsOffScreen(cfg: Config, p: Pickup)
  {
    p.y > cfg.height
  }

  /** `n` frames of `Update`. */
  function Fall(p: Pickup, n: nat): (r: Pickup)
    ensures r == p.(y := p.y + FallPerFrame * n)
  {
    if n == 0 then p else Update(Fall(p, n - 1))
  }

  /** The number of `Update`s after which the can is off screen for the first
      time, and so removed by the clean-up of that frame. */
  function FramesOnScreen(cfg: Config, p: Pickup): (n: nat)
    ensures IsOffScreen(cfg, Fall(p, n))
    ensures forall k: nat :: k < n ==> !IsOffScreen(cfg, Fall(p, k))
  {
    if p.y > cfg.height then 0 else (cfg.height - p.y) / FallPerFrame + 1
  }
}

=== FILE: gameplay.dfy ===
/** The per-frame simulation of the gameplay class: the session state as one
    immutable record and every helper of `Update` as a function from state to
    state. SplashKit's timers, key polling, random numbers and pixel collision
    tests are inputs of each frame. */
module Gameplay {
  import opened Seqs
  import opened Sprites
  import Cars
  import Obstacles
  import Fuels
  import Bonuses

  const InitialTimeSeconds := 15
  const ObstacleSpawnMsDefault := 1000
  const FuelSpawnMsDefault := 2500
  const ObstacleSpawnMsMin := 500
  const FuelSpawnMsMin := 1500
  const FuelDrainEverySec := 1
  const FuelDrainAmountPerTick := 2
  const ObstacleMaxSpeed := 30
  const ObstacleSpeedStep := 3
  const CollisionFuelPenalty := 5
  const CollisionCooldownMs := 800
  const TimeBonusSmallFuel := 3
  const TimeBonusLargeFuel := 6
  const BonusSpawnMs := 8000
  const BonusEarliestSec := 5
  const DoubleScoreMs := 10000
  const ShieldMs := 5000
  const CoinPoints := 100
  const TextLifetime := 1000
  /** A floating text loses this much lifetime per frame, whatever the frame took. */
  const TextFadePerFrame := 16

  /** `_gameOverReason`: empty, "Time out" or "Game over". */
  datatype Reason = NoReason | TimeOut | OutOfFuel

  /** What a floating text says; its colour follows from the caption. */
  datatype Caption =
    | FuelLost(amount: int)
    | FuelGained(amount: int)
    | TimeGained(seconds: int)
    | DoubleScoreOn
    | ShieldOn
    | Points(gain: int)

  datatype FloatingText = FloatingText(caption: Caption, x: int, y: int, lifetime: int)

  /** Milliseconds counted by each SplashKit timer since it was started or last reset. */
  datatype Timers = Timers(
    game: nat, obstacle: nat, fuel: nat, fuelDrain: nat,
    hit: nat, bonus: nat, doubleScore: nat, shield: nat)

  datatype Game = Game(
    car: Cars.Car,
    obstacles: seq<Obstacles.Obstacle>,
    fuels: seq<Fuels.Pickup>,
    bonuses: seq<Bonuses.Bonus>,
    texts: seq<FloatingText>,
    timers: Timers,
    isGameOver: bool,
    reason: Reason,
    score: int,
    remainingTime: int,
    obstacleInterval: int,
    fuelInterval: int,
    paused: bool,
    doubleScore: bool,
    shield: bool)

  /** Keys polled by `HandleInput`: P typed this frame, arrows held. */
  datatype Keys = Keys(pauseTyped: bool, leftDown: bool, rightDown: bool)

  /** The random draws a frame may consume; each is used only when its spawn happens. */
  datatype Draws = Draws(
    obstacleVariant: nat, obstacleX: nat,
    fuelBelowHalf: bool, fuelX: nat,
    bonusRoll: nat, bonusX: nat)

  /** The result of a pass over one entity list: the list as it leaves the loop
      and the state the loop body threaded through. */
  datatype Pass<T> = Pass(items: seq<T>, game: Game)

  function ElapsedSec(t: Timers): nat
  {
    t.game / 1000
  }

  /** The constructor: all timers started together, default intervals, 15 seconds. */
  function NewGame(cfg: Config, carType: string): (r: Game)
    ensures r.car == Cars.New(cfg, carType)
    ensures r.obstacles == [] && r.fuels == [] && r.bonuses == [] && r.texts == []
    ensures r.timers == Timers(0, 0, 0, 0, 0, 0, 0, 0)
    ensures !r.isGameOver && r.reason == NoReason && r.score == 0
    ensures r.remainingTime == InitialTimeSeconds
    ensures r.obstacleInterval == ObstacleSpawnMsDefault && r.fuelInterval == FuelSpawnMsDefault
    ensures !r.paused && !r.doubleScore && !r.shield
  {
    Game(Cars.New(cfg, carType), [], [], [], [], Timers(0, 0, 0, 0, 0, 0, 0, 0),
         false, NoReason, 0, InitialTimeSeconds,
         ObstacleSpawnMsDefault, FuelSpawnMsDefault, false, false, false)
  }

  // ---------------------------------------------------------------- timers

  /** `dt` milliseconds of wall-clock time pass between two frames. The timer
      bank is paused and resumed as a whole, so either all timers advance or none. */
  function AdvanceClock(g: Game, dt: nat): (r: Game)
    ensures r == g.(timers := r.timers)
    ensures g.paused ==> r == g
    ensures !g.paused ==> (
      && r.timers.game == g.timers.game + dt && r.timers.obstacle == g.timers.obstacle + dt
      && r.timers.fuel == g.timers.fuel + dt && r.timers.fuelDrain == g.timers.fuelDrain + dt
      && r.timers.hit == g.timers.hit + dt && r.timers.bonus == g.timers.bonus + dt
      && r.timers.doubleScore == g.timers.doubleScore + dt && r.timers.shield == g.timers.shield + dt)
  {
    if g.paused then g
    else
      var t := g.timers;
      g.(timers := Timers(t.game + dt, t.obstacle + dt, t.fuel + dt, t.fuelDrain + dt,
                          t.hit + dt, t.bonus + dt, t.doubleScore + dt, t.shield + dt))
  }

  // ---------------------------------------------------------------- input

  /** `HandleInput`: a typed P flips the paused flag (pausing or resuming every
      timer); while not paused the car steers. */
  function HandleInput(cfg: Config, g: Game, k: Keys): (r: Game)
    ensures r == g.(paused := r.paused, car := r.car)
    ensures r.paused <==> g.paused != k.pauseTyped
    ensures r.paused ==> r.car == g.car
    ensures !r.paused ==> r.car == Cars.HandleInput(cfg, g.car, k.leftDown, k.rightDown)
  {
    var paused := if k.pauseTyped then !g.paused else g.paused;
    if paused then g.(paused := paused)
    else g.(paused := paused, car := Cars.HandleInput(cfg, g.car, k.leftDown, k.rightDown))
  }

  // ---------------------------------------------------------------- difficulty

  /** `(int)(interval * 0.95)`: 95 % of the interval, the cast truncating toward
      zero. The double product is within rounding of 95 * interval / 100 and an
      exact integer stays exact, so integer arithmetic gives the same value. */
  function Shrink(interval: int): (r: int)
    ensures interval >= 0 ==> 0 <= 100 * r <= 95 * interval < 100 * r + 100
    ensures interval < 0 ==> 100 * r - 100 < 95 * interval <= 100 * r <= 0
  {
    if interval >= 0 then interval * 95 / 100 else -(-interval * 95 / 100)
  }

  /** The frames on which the ratchet fires: every frame whose whole elapsed
      second is a positive multiple of ten. */
  predicate RampSecond(t: Timers)
  {
    ElapsedSec(t) > 0 && ElapsedSec(t) % 10 == 0
  }

  lemma ShrinkBounds(interval: int)
    requires interval >= 0
    ensures Shrink(interval) <= interval
    ensures interval >= 20 ==> Shrink(interval) < interval
  {
  }

  /** `AdjustDifficultyByTime`: a one-way ratchet of both spawn intervals
      toward their floors. */
  function AdjustDifficulty(g: Game): (r: Game)
    ensures r == g.(obstacleInterval := r.obstacleInterval, fuelInterval := r.fuelInterval)
    ensures r.obstacleInterval != g.obstacleInterval || r.fuelInterval != g.fuelInterval ==> RampSecond(g.timers)
    ensures g.obstacleInterval >= ObstacleSpawnMsMin ==> ObstacleSpawnMsMin <= r.obstacleInterval <= g.obstacleInterval
    ensures g.fuelInterval >= FuelSpawnMsMin ==> FuelSpawnMsMin <= r.fuelInterval <= g.fuelInterval
    ensures RampSecond(g.timers) && g.obstacleInterval > ObstacleSpawnMsMin ==> r.obstacleInterval < g.obstacleInterval
    ensures RampSecond(g.timers) && g.fuelInterval > FuelSpawnMsMin ==> r.fuelInterval < g.fuelInterval
  {
    if RampSecond(g.timers) then
      var newObstacle := Max(ObstacleSpawnMsMin, Shrink(g.obstacleInterval));
      var newFuel := Max(FuelSpawnMsMin, Shrink(g.fuelInterval));
      ShrinkBounds(Max(g.obstacleInterval, 0));
      ShrinkBounds(Max(g.fuelInterval, 0));
      if newObstacle != g.obstacleInterval || newFuel != g.fuelInterval then
        g.(obstacleInterval := newObstacle, fuelInterval := newFuel)
      else g
    else g
  }

  // ---------------------------------------------------------------- spawning

  predicate ObstacleDue(g: Game)
  {
    g.timers.obstacle > g.obstacleInterval
  }

  /** `TrySpawnObstacle`: once the obstacle timer passes the interval, one
      obstacle is added and the timer starts over. */
  function TrySpawnObstacle(cfg: Config, g: Game, d: Draws): (r: Game)
    requires ObstacleDue(g) ==> FitsRoad(cfg, ObstacleImage(Obstacles.PickVariant(d.obstacleVariant)))
    ensures r == g.(obstacles := r.obstacles, timers := g.timers.(obstacle := r.timers.obstacle))
    ensures ObstacleDue(g) ==> (r.timers.obstacle == 0
      && r.obstacles == g.obstacles + [Obstacles.New(cfg, d.obstacleVariant, d.obstacleX)])
    ensures !ObstacleDue(g) ==> r == g
    ensures g.obstacleInterval >= 0 ==> !ObstacleDue(r)
  {
    if ObstacleDue(g) then
      g.(obstacles := g.obstacles + [Obstacles.New(cfg, d.obstacleVariant, d.obstacleX)],
         timers := g.timers.(obstacle := 0))
    else g
  }

  /** `RandomFuel`: `Rnd() * 100 <= 50` picks the small can; the floating-point
      comparison is the boolean draw. */
  function RandomFuelKind(belowHalf: bool): (k: FuelKind)
    ensures k == Small <==> belowHalf
    ensures Fuels.RefuelAmount(k) == if belowHalf then 5 else 10
  {
    if belowHalf then Small else Large
  }

  predicate FuelDue(g: Game)
  {
    g.timers.fuel > g.fuelInterval
  }

  /** `TrySpawnFuel`: as for obstacles, with the fuel timer and interval. */
  function TrySpawnFuel(cfg: Config, g: Game, d: Draws): (r: Game)
    requires FuelDue(g) ==> FitsRoad(cfg, FuelImage(RandomFuelKind(d.fuelBelowHalf)))
    ensures r == g.(fuels := r.fuels, timers := g.timers.(fuel := r.timers.fuel))
    ensures FuelDue(g) ==> (r.timers.fuel == 0
      && r.fuels == g.fuels + [Fuels.New(cfg, RandomFuelKind(d.fuelBelowHalf), d.fuelX)])
    ensures !FuelDue(g) ==> r == g
    ensures g.fuelInterval >= 0 ==> !FuelDue(r)
  {
    if FuelDue(g) then
      g.(fuels := g.fuels + [Fuels.New(cfg, RandomFuelKind(d.fuelBelowHalf), d.fuelX)],
         timers := g.timers.(fuel := 0))
    else g
  }

  predicate BonusDue(g: Game)
  {
    g.timers.bonus > BonusSpawnMs && ElapsedSec(g.timers) > BonusEarliestSec
  }

  function BonusKindOf(d: Draws): BonusKind
  {
    Bonuses.KindOfRoll(Bonuses.Roll(d.bonusRoll))
  }

  /** `TrySpawnBonus`: after the fifth second, one bonus every 8 seconds. */
  function TrySpawnBonus(cfg: Config, g: Game, d: Draws): (r: Game)
    ensures r == g.(bonuses := r.bonuses, timers := g.timers.(bonus := r.timers.bonus))
    ensures BonusDue(g) ==> (r.timers.bonus == 0
      && r.bonuses == g.bonuses + [Bonuses.New(cfg, BonusKindOf(d), d.bonusX)])
    ensures !BonusDue(g) ==> r == g
  {
    if BonusDue(g) then
      g.(bonuses := g.bonuses + [Bonuses.New(cfg, BonusKindOf(d), d.bonusX)],
         timers := g.timers.(bonus := 0))
    else g
  }

  // ---------------------------------------------------------------- obstacles

  /** The speed step of `UpdateObstacles`: three more, only below the cap, and
      only when `signal` (the obstacle timer past the interval) holds. */
  function Accelerate(o: Obstacles.Obstacle, signal: bool): (r: Obstacles.Obstacle)
    ensures r == o.(speed := r.speed)
    ensures o.speed <= r.speed
    ensures r.speed != o.speed ==> o.speed < ObstacleMaxSpeed && r.speed == o.speed + ObstacleSpeedStep
    ensures !signal ==> r == o
    ensures signal && o.speed < ObstacleMaxSpeed ==> r.speed == o.speed + ObstacleSpeedStep
  {
    if o.speed < ObstacleMaxSpeed && signal then o.(speed := o.speed + ObstacleSpeedStep) else o
  }

  predicate HitsCar(collides: Collides, c: Cars.Car, o: Obstacles.Obstacle)
  {
    collides(Cars.BodyOf(c), Obstacles.BodyOf(o))
  }

  /** The cooldown gate of the collision penalty. */
  predicate PenaltyReady(g: Game)
  {
    !g.shield && g.timers.hit >= CollisionCooldownMs
  }

  /** Across a stage of the frame the cooldown timer either keeps its value or
      is restarted by a penalty, and a penalty needs the gate open on entry. */
  predicate HitTimerKept(g: Game, r: Game)
  {
    r.timers.hit == g.timers.hit || (r.timers.hit == 0 && PenaltyReady(g))
  }

  /** The collision penalty: five fuel, floored at zero, a red "-5 Fuel", and the
      cooldown timer restarted. */
  function Penalise(g: Game): (r: Game)
    ensures r == g.(car := r.car, timers := g.timers.(hit := 0), texts := r.texts)
    ensures r.car == g.car.(fuel := Max(0, g.car.fuel - CollisionFuelPenalty))
    ensures r.texts == g.texts + [FloatingText(FuelLost(CollisionFuelPenalty), g.car.x, g.car.y - 20, TextLifetime)]
    ensures !PenaltyReady(r)
  {
    g.(car := g.car.(fuel := Max(0, g.car.fuel - CollisionFuelPenalty)),
       timers := g.timers.(hit := 0),
       texts := g.texts + [FloatingText(FuelLost(CollisionFuelPenalty), g.car.x, g.car.y - 20, TextLifetime)])
  }

  /** The `foreach` of `UpdateObstacles` over `os`: each obstacle falls, may
      speed up, and is tested against the car. Because a penalty restarts the
      cooldown timer, the whole pass applies at most one penalty: exactly one
      when the gate is open and some moved obstacle touches the car. */
  function ObstaclePass(os: seq<Obstacles.Obstacle>, g: Game, collides: Collides): (r: Pass<Obstacles.Obstacle>)
    ensures |r.items| == |os|
    ensures forall i :: 0 <= i < |os| ==> r.items[i] == Accelerate(Obstacles.Update(os[i]), ObstacleDue(g))
    ensures if PenaltyReady(g) && exists i :: 0 <= i < |r.items| && HitsCar(collides, g.car, r.items[i])
            then r.game == Penalise(g)
            else r.game == g
    decreases |os|
  {
    if os == [] then Pass([], g)
    else
      var o := Accelerate(Obstacles.Update(os[0]), ObstacleDue(g));
      var g' := if PenaltyReady(g) && HitsCar(collides, g.car, o) then Penalise(g) else g;
      var rest := ObstaclePass(os[1..], g', collides);
      var items := [o] + rest.items;
      assert forall i :: 0 < i < |items| ==> items[i] == rest.items[i - 1];
      assert Cars.BodyOf(g'.car) == Cars.BodyOf(g.car);
      Pass(items, rest.game)
  }

  /** `UpdateObstacles`. */
  function UpdateObstacles(g: Game, collides: Collides): (r: Game)
    ensures r == g.(obstacles := r.obstacles, car := r.car, timers := g.timers.(hit := r.timers.hit), texts := r.texts)
    ensures |r.obstacles| == |g.obstacles|
    ensures r.car == g.car.(fuel := r.car.fuel)
    ensures r.car.fuel == g.car.fuel || r.car.fuel == Max(0, g.car.fuel - CollisionFuelPenalty)
    ensures !PenaltyReady(g) ==> r.car == g.car && r.timers == g.timers
    ensures HitTimerKept(g, r)
    ensures forall i :: 0 <= i < |g.obstacles| ==> r.obstacles[i] == Accelerate(Obstacles.Update(g.obstacles[i]), ObstacleDue(g))
    ensures if PenaltyReady(g) && exists i :: 0 <= i < |r.obstacles| && HitsCar(collides, g.car, r.obstacles[i])
            then r == Penalise(g).(obstacles := r.obstacles)
            else r == g.(obstacles := r.obstacles)
  {
    var p := ObstaclePass(g.obstacles, g, collides);
    // The pass leaves the session as it was or applies its one penalty.
    if p.game == g then g.(obstacles := p.items)
    else Penalise(g).(obstacles := p.items)
  }

  /** `CleanupOffscreenObstacles`: `RemoveAll(o => o.Y > height)`. */
  function CleanupObstacles(cfg: Config, g: Game): (r: Game)
    ensures r == g.(obstacles := r.obstacles)
    ensures forall o :: o in r.obstacles <==> o in g.obstacles && o.y <= cfg.height
    ensures IsSubsequence(r.obstacles, g.obstacles)
    ensures forall o :: multiset(r.obstacles)[o] == if o.y <= cfg.height then multiset(g.obstacles)[o] else 0
  {
    g.(obstacles := Filter(g.obstacles, (o: Obstacles.Obstacle) => o.y <= cfg.height))
  }

  // ---------------------------------------------------------------- fuel

  predicate Grabs(collides: Collides, c: Cars.Car, p: Fuels.Pickup)
  {
    collides(Cars.BodyOf(c), Fuels.BodyOf(p))
  }

  /** Reference definition of the pickup the fuel loop stops at: the index of
      the first can that touches the car once it has fallen, or |fs| if none does. */
  function FirstPickup(fs: seq<Fuels.Pickup>, c: Cars.Car, collides: Collides): (k: nat)
    ensures k <= |fs|
    ensures forall j :: 0 <= j < k ==> !Grabs(collides, c, Fuels.Update(fs[j]))
    ensures k < |fs| ==> Grabs(collides, c, Fuels.Update(fs[k]))
  {
    if fs == [] then 0
    else if Grabs(collides, c, Fuels.Update(fs[0])) then 0
    else 1 + FirstPickup(fs[1..], c, collides)
  }

  /** Every can of `fs` after one `Fuel.Update`. */
  function Fallen(fs: seq<Fuels.Pickup>): (r: seq<Fuels.Pickup>)
    ensures |r| == |fs|
    ensures forall i :: 0 <= i < |fs| ==> r[i] == Fuels.Update(fs[i])
  {
    if fs == [] then [] else [Fuels.Update(fs[0])] + Fallen(fs[1..])
  }

  /** How the cans look after the loop moves past an untouched first can: its
      fall is put in front of what the loop does with the rest. */
  lemma FallenCons(fs: seq<Fuels.Pickup>, k: nat)
    requires fs != [] && k < |fs|
    ensures Fallen(fs) == [Fuels.Update(fs[0])] + Fallen(fs[1..])
    ensures k < |fs| - 1 ==>
      Fallen(fs[..k + 1]) + fs[k + 2..] == [Fuels.Update(fs[0])] + (Fallen(fs[1..][..k]) + fs[1..][k + 1..])
  {
    if k < |fs| - 1 {
      FallenFront(fs, k);
      assert fs[1..][k + 1..] == fs[k + 2..];
      ConcatAssoc([Fuels.Update(fs[0])], Fallen(fs[1..][..k]), fs[k + 2..]);
    }
  }

  /** The first k + 1 cans after their fall: the first can's fall, then the next k. */
  lemma FallenFront(fs: seq<Fuels.Pickup>, k: nat)
    requires k < |fs|
    ensures Fallen(fs[..k + 1]) == [Fuels.Update(fs[0])] + Fallen(fs[1..][..k])
  {
    var front := fs[..k + 1];
    assert front[0] == fs[0] && front[1..] == fs[1..][..k];
  }

  /** Time bonus for a pickup: 6 seconds for 10 fuel or more, 3 otherwise. */
  function TimeBonus(added: int): (r: int)
    ensures r == TimeBonusLargeFuel <==> added >= 10
    ensures r == TimeBonusSmallFuel <==> added < 10
  {
    if added >= 10 then TimeBonusLargeFuel else TimeBonusSmallFuel
  }

  /** Collecting a can of `kind`: refuel, extend the time budget, two floating texts. */
  function Collect(g: Game, kind: FuelKind): (r: Game)
    ensures r == g.(car := r.car, remainingTime := r.remainingTime, texts := r.texts)
    ensures r.car == Cars.Refuel(g.car, Fuels.RefuelAmount(kind))
    ensures r.remainingTime == g.remainingTime + (if kind == Large then TimeBonusLargeFuel else TimeBonusSmallFuel)
    ensures r.texts == g.texts + [FloatingText(FuelGained(Fuels.RefuelAmount(kind)), g.car.x, g.car.y - 20, TextLifetime),
                                  FloatingText(TimeGained(r.remainingTime - g.remainingTime), g.car.x, g.car.y - 40, TextLifetime)]
  {
    var added := Fuels.RefuelAmount(kind);
    var bonus := TimeBonus(added);
    g.(car := Cars.Refuel(g.car, added),
       remainingTime := g.remainingTime + bonus,
       texts := g.texts + [FloatingText(FuelGained(added), g.car.x, g.car.y - 20, TextLifetime),
                           FloatingText(TimeGained(bonus), g.car.x, g.car.y - 40, TextLifetime)])
  }

  /** The `foreach` of `UpdateFuels`, which breaks after the first pickup: cans
      before it have fallen, it is gone, and the cans after it have not moved. */
  function FuelPass(fs: seq<Fuels.Pickup>, g: Game, collides: Collides): (r: Pass<Fuels.Pickup>)
    ensures FirstPickup(fs, g.car, collides) == |fs| ==> r.items == Fallen(fs) && r.game == g
    ensures FirstPickup(fs, g.car, collides) < |fs| ==>
      r.game == Collect(g, fs[FirstPickup(fs, g.car, collides)].kind)
    ensures FirstPickup(fs, g.car, collides) < |fs| ==>
      r.items == Fallen(fs[..FirstPickup(fs, g.car, collides)]) + fs[FirstPickup(fs, g.car, collides) + 1..]
    decreases |fs|
  {
    if fs == [] then Pass([], g)
    else
      var p := Fuels.Update(fs[0]);
      if Grabs(collides, g.car, p) then Pass(fs[1..], Collect(g, p.kind))
      else
        var rest := FuelPass(fs[1..], g, collides);
        var k := FirstPickup(fs[1..], g.car, collides);
        assert FirstPickup(fs, g.car, collides) == k + 1;
        FallenCons(fs, k);
        Pass([p] + rest.items, rest.game)
  }

  /** A floating text after one frame: 16 less lifetime, one pixel higher. */
  function Aged(t: FloatingText): (r: FloatingText)
    ensures r.caption == t.caption && r.x == t.x
    ensures t.lifetime - r.lifetime == TextFadePerFrame && t.y - r.y == 1
  {
    t.(lifetime := t.lifetime - TextFadePerFrame, y := t.y - 1)
  }

  /** A floating text after `n` frames. */
  function AgedTimes(t: FloatingText, n: nat): (r: FloatingText)
    ensures r == t.(lifetime := t.lifetime - TextFadePerFrame * n, y := t.y - n)
  {
    if n == 0 then t else Aged(AgedTimes(t, n - 1))
  }

  /** A new text survives exactly 62 agings: it is drawn for the frame that
      adds it and the 61 after, rising 62 pixels, and is removed by the 63rd. */
  lemma TextShownFrames(t: FloatingText, n: nat)
    requires t.lifetime == TextLifetime
    ensures Alive(AgedTimes(t, n)) <==> n <= 62
  {
  }

  /** The inverse of `Aged`. */
  function Unaged(t: FloatingText): (r: FloatingText)
    ensures Aged(r) == t
  {
    t.(lifetime := t.lifetime + TextFadePerFrame, y := t.y + 1)
  }

  /** A floating text still on screen. */
  predicate Alive(t: FloatingText)
  {
    t.lifetime > 0
  }

  /** The backwards loop over `_floatingTexts`: age every text and drop those
      whose lifetime ran out, keeping the others in order. Removing from the
      back leaves the survivors in their order, duplicates included: the result
      is the aged list filtered by `Alive`. */
  function AgeTexts(ts: seq<FloatingText>): (r: seq<FloatingText>)
    ensures |r| <= |ts|
    ensures r == Filter(Map(ts, Aged), Alive)
  {
    if ts == [] then []
    else
      var t := Aged(ts[0]);
      var rest := AgeTexts(ts[1..]);
      AgeTextsStep(ts);
      if t.lifetime <= 0 then rest else [t] + rest
  }

  /** What `AgeTexts` keeps, text by text: every survivor has positive lifetime
      and is an input text aged once, and every text with more than one
      frame's lifetime left survives. */
  lemma AgeTextsMembers(ts: seq<FloatingText>)
    ensures forall t :: t in AgeTexts(ts) ==> t.lifetime > 0 && Unaged(t) in ts
    ensures forall i :: 0 <= i < |ts| && ts[i].lifetime > TextFadePerFrame ==> Aged(ts[i]) in AgeTexts(ts)
  {
    var aged := Map(ts, Aged);
    forall t | t in AgeTexts(ts)
      ensures t.lifetime > 0 && Unaged(t) in ts
    {
      assert t in aged && Alive(t);
      var i :| 0 <= i < |aged| && aged[i] == t;
      assert Unaged(t) == ts[i];
    }
    forall i | 0 <= i < |ts| && ts[i].lifetime > TextFadePerFrame
      ensures Aged(ts[i]) in AgeTexts(ts)
    {
      assert aged[i] in aged;
    }
  }

  /** One step of `AgeTexts` against its reference: the head is aged and kept
      or dropped, then the tail is filtered. */
  lemma AgeTextsStep(ts: seq<FloatingText>)
    requires ts != []
    ensures Filter(Map(ts, Aged), Alive)
      == (if Alive(Aged(ts[0])) then [Aged(ts[0])] else []) + Filter(Map(ts[1..], Aged), Alive)
  {
    var aged := Map(ts, Aged);
    assert aged[0] == Aged(ts[0]) && aged[1..] == Map(ts[1..], Aged);
    FilterCons(aged, Alive);
  }

  /** The pickup loop of `UpdateFuels`, on the session. */
  function PickupStage(g: Game, collides: Collides): (r: Game)
    ensures r == g.(fuels := r.fuels, car := r.car, remainingTime := r.remainingTime, texts := r.texts)
    ensures var k := FirstPickup(g.fuels, g.car, collides);
      if k == |g.fuels| then
        && r.car == g.car && r.remainingTime == g.remainingTime && r.texts == g.texts
        && r.fuels == Fallen(g.fuels)
      else
        && r.car == Cars.Refuel(g.car, Fuels.RefuelAmount(g.fuels[k].kind))
        && r.remainingTime == g.remainingTime + TimeBonus(Fuels.RefuelAmount(g.fuels[k].kind))
        && r.texts == Collect(g, g.fuels[k].kind).texts
        && r.fuels == Fallen(g.fuels[..k]) + g.fuels[k + 1..]
        && |r.fuels| == |g.fuels| - 1
  {
    var p := FuelPass(g.fuels, g, collides);
    var k := FirstPickup(g.fuels, g.car, collides);
    assert k < |g.fuels| ==> |p.items| == k + (|g.fuels| - k - 1);
    p.game.(fuels := p.items)
  }

  /** `UpdateFuels`: the pickup loop, then the floating-text lifetimes. */
  function UpdateFuels(g: Game, collides: Collides): (r: Game)
    ensures r == g.(fuels := r.fuels, car := r.car, remainingTime := r.remainingTime, texts := r.texts)
    ensures var k := FirstPickup(g.fuels, g.car, collides);
      if k == |g.fuels| then
        r.car == g.car && r.remainingTime == g.remainingTime && |r.fuels| == |g.fuels|
      else
        && r.car == Cars.Refuel(g.car, Fuels.RefuelAmount(g.fuels[k].kind))
        && r.remainingTime == g.remainingTime + TimeBonus(Fuels.RefuelAmount(g.fuels[k].kind))
        && |r.fuels| == |g.fuels| - 1
    ensures FirstPickup(g.fuels, g.car, collides) == |g.fuels| ==> r.fuels == Fallen(g.fuels)
    ensures FirstPickup(g.fuels, g.car, collides) < |g.fuels| ==>
      r.fuels == Fallen(g.fuels[..FirstPickup(g.fuels, g.car, collides)]) + g.fuels[FirstPickup(g.fuels, g.car, collides) + 1..]
    ensures var k := FirstPickup(g.fuels, g.car, collides);
      r.texts == AgeTexts(if k == |g.fuels| then g.texts else Collect(g, g.fuels[k].kind).texts)
  {
    var g1 := PickupStage(g, collides);
    var r := g1.(texts := AgeTexts(g1.texts));
    assert r == g.(fuels := r.fuels, car := r.car, remainingTime := r.remainingTime, texts := r.texts);
    r
  }

  /** `CleanupOffscreenFuels`. */
  function CleanupFuels(cfg: Config, g: Game): (r: Game)
    ensures r == g.(fuels := r.fuels)
    ensures forall p :: p in r.fuels <==> p in g.fuels && !Fuels.IsOffScreen(cfg, p)
    ensures IsSubsequence(r.fuels, g.fuels)
    ensures forall p :: multiset(r.fuels)[p] == if Fuels.IsOffScreen(cfg, p) then 0 else multiset(g.fuels)[p]
  {
    g.(fuels := Filter(g.fuels, (p: Fuels.Pickup) => !Fuels.IsOffScreen(cfg, p)))
  }

  // ---------------------------------------------------------------- bonuses

  predicate Touches(collides: Collides, c: Cars.Car, b: Bonuses.Bonus)
  {
    collides(Cars.BodyOf(c), Bonuses.BodyOf(b))
  }

  /** The floating text of a bonus pickup: "Double Score (10s)", "Shield (5s)",
      or "+N Points" with the coin's gain, doubled while double score is active. */
  function BonusCaption(g: Game, kind: BonusKind): Caption
  {
    match kind
    case Star => DoubleScoreOn
    case Shield => ShieldOn
    case Coin => Points(if g.doubleScore then 2 * CoinPoints else CoinPoints)
  }

  /** `ApplyBonus`. */
  function ApplyBonus(g: Game, kind: BonusKind): (r: Game)
    ensures r == g.(score := r.score, doubleScore := r.doubleScore, shield := r.shield,
                    timers := g.timers.(doubleScore := r.timers.doubleScore, shield := r.timers.shield),
                    texts := r.texts)
    ensures r.texts == g.texts + [FloatingText(BonusCaption(g, kind), g.car.x, g.car.y - 30, TextLifetime)]
    ensures kind == Star ==>
      r == g.(doubleScore := true, timers := g.timers.(doubleScore := 0), texts := r.texts)
    ensures kind == Shield ==>
      r == g.(shield := true, timers := g.timers.(shield := 0), texts := r.texts)
    ensures kind == Coin ==> (r == g.(score := r.score, texts := r.texts)
      && r.score == g.score + (if g.doubleScore then 2 * CoinPoints else CoinPoints))
  {
    match kind
    case Star =>
      g.(doubleScore := true, timers := g.timers.(doubleScore := 0),
         texts := g.texts + [FloatingText(DoubleScoreOn, g.car.x, g.car.y - 30, TextLifetime)])
    case Shield =>
      g.(shield := true, timers := g.timers.(shield := 0),
         texts := g.texts + [FloatingText(ShieldOn, g.car.x, g.car.y - 30, TextLifetime)])
    case Coin =>
      var gain := if g.doubleScore then 200 else 100;
      g.(score := g.score + gain,
         texts := g.texts + [FloatingText(Points(gain), g.car.x, g.car.y - 30, TextLifetime)])
  }

  /** The keep test of the bonus loop: the bonus does not touch the car. */
  function Untouched(collides: Collides, c: Cars.Car): Bonuses.Bonus -> bool
  {
    b => !Touches(collides, c, b)
  }

  /** Reference definition of what the bonus loop keeps: every bonus after one
      `Update`, except those that then touch the car. */
  function Missed(bs: seq<Bonuses.Bonus>, c: Cars.Car, collides: Collides): (r: seq<Bonuses.Bonus>)
    ensures |r| <= |bs|
    ensures r == Filter(Map(bs, Bonuses.Update), Untouched(collides, c))
  {
    if bs == [] then []
    else
      var b := Bonuses.Update(bs[0]);
      var rest := Missed(bs[1..], c, collides);
      MissedStep(bs, c, collides);
      if Touches(collides, c, b) then rest else [b] + rest
  }

  /** What `Missed` keeps, element by element: no kept bonus touches the car,
      each is some input bonus after its fall, and every fallen bonus that
      misses the car is kept. */
  lemma MissedMembers(bs: seq<Bonuses.Bonus>, c: Cars.Car, collides: Collides)
    ensures forall b :: b in Missed(bs, c, collides) ==> !Touches(collides, c, b)
    ensures forall b :: b in Missed(bs, c, collides) ==> exists i :: 0 <= i < |bs| && b == Bonuses.Update(bs[i])
    ensures forall i :: 0 <= i < |bs| && !Touches(collides, c, Bonuses.Update(bs[i])) ==>
      Bonuses.Update(bs[i]) in Missed(bs, c, collides)
  {
    var fallen := Map(bs, Bonuses.Update);
    forall b | b in Missed(bs, c, collides)
      ensures !Touches(collides, c, b) && exists i :: 0 <= i < |bs| && b == Bonuses.Update(bs[i])
    {
      assert b in fallen && Untouched(collides, c)(b);
      var i :| 0 <= i < |fallen| && fallen[i] == b;
    }
    forall i | 0 <= i < |bs| && !Touches(collides, c, Bonuses.Update(bs[i]))
      ensures Bonuses.Update(bs[i]) in Missed(bs, c, collides)
    {
      assert fallen[i] in fallen;
    }
  }

  /** One step of `Missed` against its reference: the head falls and is kept
      or dropped, then the tail is filtered. */
  lemma MissedStep(bs: seq<Bonuses.Bonus>, c: Cars.Car, collides: Collides)
    requires bs != []
    ensures var b := Bonuses.Update(bs[0]);
      Filter(Map(bs, Bonuses.Update), Untouched(collides, c))
        == (if Touches(collides, c, b) then [] else [b]) + Filter(Map(bs[1..], Bonuses.Update), Untouched(collides, c))
  {
    var fallen := Map(bs, Bonuses.Update);
    assert fallen[0] == Bonuses.Update(bs[0]) && fallen[1..] == Map(bs[1..], Bonuses.Update);
    FilterCons(fallen, Untouched(collides, c));
  }

  /** Some bonus of `kind` touches the car after its fall this frame. */
  predicate Collected(bs: seq<Bonuses.Bonus>, c: Cars.Car, collides: Collides, kind: BonusKind)
  {
    exists i :: 0 <= i < |bs| && Touches(collides, c, Bonuses.Update(bs[i])) && bs[i].kind == kind
  }

  /** `Collected` over a non-empty list splits into its head and its tail. */
  lemma CollectedCons(bs: seq<Bonuses.Bonus>, c: Cars.Car, collides: Collides, kind: BonusKind)
    requires bs != []
    ensures Collected(bs, c, collides, kind) <==>
      (Touches(collides, c, Bonuses.Update(bs[0])) && bs[0].kind == kind) || Collected(bs[1..], c, collides, kind)
  {
    if Collected(bs, c, collides, kind) {
      var i :| 0 <= i < |bs| && Touches(collides, c, Bonuses.Update(bs[i])) && bs[i].kind == kind;
      if i > 0 {
        assert bs[1..][i - 1] == bs[i];
      }
    }
    if Collected(bs[1..], c, collides, kind) {
      var j :| 0 <= j < |bs[1..]| && Touches(collides, c, Bonuses.Update(bs[1..][j])) && bs[1..][j].kind == kind;
      assert bs[j + 1] == bs[1..][j];
    }
  }

  /** The indexed loop of `UpdateBonuses`: every bonus falls; each one that
      touches the car is applied and removed, and the loop goes on. */
  function BonusPass(bs: seq<Bonuses.Bonus>, g: Game, collides: Collides): (r: Pass<Bonuses.Bonus>)
    ensures r.items == Missed(bs, g.car, collides)
    ensures r.game == g.(score := r.game.score, doubleScore := r.game.doubleScore, shield := r.game.shield,
                         timers := g.timers.(doubleScore := r.game.timers.doubleScore, shield := r.game.timers.shield),
                         texts := r.game.texts)
    ensures r.game.score >= g.score
    ensures |r.items| + (|r.game.texts| - |g.texts|) == |bs|
    decreases |bs|
  {
    if bs == [] then Pass([], g)
    else
      var b := Bonuses.Update(bs[0]);
      if Touches(collides, g.car, b) then BonusPass(bs[1..], ApplyBonus(g, b.kind), collides)
      else
        var rest := BonusPass(bs[1..], g, collides);
        Pass([b] + rest.items, rest.game)
  }

  /** One step of the bonus loop: the first bonus falls and, if it touches
      the car, is applied before the loop goes on. */
  lemma BonusPassCons(bs: seq<Bonuses.Bonus>, g: Game, collides: Collides)
    requires bs != []
    ensures var b := Bonuses.Update(bs[0]);
      BonusPass(bs, g, collides).game ==
        if Touches(collides, g.car, b) then BonusPass(bs[1..], ApplyBonus(g, b.kind), collides).game
        else BonusPass(bs[1..], g, collides).game
  {
  }

  /** A picked-up shield leaves the shield on with its timer restarted; with no
      shield picked up, the flag and its timer are as they were. */
  lemma {:induction false} ShieldPickup(bs: seq<Bonuses.Bonus>, g: Game, collides: Collides)
    ensures var r := BonusPass(bs, g, collides).game;
      && (Collected(bs, g.car, collides, Shield) ==> r.shield && r.timers.shield == 0)
      && (!Collected(bs, g.car, collides, Shield) ==> r.shield == g.shield && r.timers.shield == g.timers.shield)
    decreases |bs|
  {
    if bs != [] {
      BonusPassCons(bs, g, collides);
      CollectedCons(bs, g.car, collides, Shield);
      var b := Bonuses.Update(bs[0]);
      if Touches(collides, g.car, b) {
        var g' := ApplyBonus(g, b.kind);
        ShieldPickup(bs[1..], g', collides);
        if b.kind == Shield {
          assert g'.shield && g'.timers.shield == 0;
        } else {
          assert g'.shield == g.shield && g'.timers.shield == g.timers.shield;
        }
      } else {
        ShieldPickup(bs[1..], g, collides);
      }
    }
  }

  /** A picked-up star leaves double score on with its timer restarted; with no
      star picked up, the flag and its timer are as they were. */
  lemma {:induction false} StarPickup(bs: seq<Bonuses.Bonus>, g: Game, collides: Collides)
    ensures var r := BonusPass(bs, g, collides).game;
      && (Collected(bs, g.car, collides, Star) ==> r.doubleScore && r.timers.doubleScore == 0)
      && (!Collected(bs, g.car, collides, Star) ==>
            r.doubleScore == g.doubleScore && r.timers.doubleScore == g.timers.doubleScore)
    decreases |bs|
  {
    if bs != [] {
      BonusPassCons(bs, g, collides);
      CollectedCons(bs, g.car, collides, Star);
      var b := Bonuses.Update(bs[0]);
      if Touches(collides, g.car, b) {
        var g' := ApplyBonus(g, b.kind);
        StarPickup(bs[1..], g', collides);
        if b.kind == Star {
          assert g'.doubleScore && g'.timers.doubleScore == 0;
        } else {
          assert g'.doubleScore == g.doubleScore && g'.timers.doubleScore == g.timers.doubleScore;
        }
      } else {
        StarPickup(bs[1..], g, collides);
      }
    }
  }

  /** The score moves exactly when a coin is picked up, and then by at least 100. */
  lemma {:induction false} CoinPickup(bs: seq<Bonuses.Bonus>, g: Game, collides: Collides)
    ensures var r := BonusPass(bs, g, collides).game;
      && (Collected(bs, g.car, collides, Coin) ==> r.score >= g.score + CoinPoints)
      && (!Collected(bs, g.car, collides, Coin) ==> r.score == g.score)
    decreases |bs|
  {
    if bs != [] {
      BonusPassCons(bs, g, collides);
      CollectedCons(bs, g.car, collides, Coin);
      var b := Bonuses.Update(bs[0]);
      if Touches(collides, g.car, b) {
        var g' := ApplyBonus(g, b.kind);
        CoinPickup(bs[1..], g', collides);
        if b.kind == Coin {
          assert g'.score >= g.score + CoinPoints;
        } else {
          assert g'.score == g.score;
        }
      } else {
        CoinPickup(bs[1..], g, collides);
      }
    }
  }

  /** The expiry checks at the end of `UpdateBonuses`. */
  function ExpireBuffs(g: Game): (r: Game)
    ensures r == g.(doubleScore := r.doubleScore, shield := r.shield)
    ensures r.doubleScore <==> g.doubleScore && g.timers.doubleScore < DoubleScoreMs
    ensures r.shield <==> g.shield && g.timers.shield < ShieldMs
  {
    var g1 := if g.doubleScore && g.timers.doubleScore >= DoubleScoreMs then g.(doubleScore := false) else g;
    if g1.shield && g1.timers.shield >= ShieldMs then g1.(shield := false) else g1
  }

  /** `UpdateBonuses`. */
  function UpdateBonuses(g: Game, collides: Collides): (r: Game)
    ensures r.bonuses == Missed(g.bonuses, g.car, collides)
    ensures r.car == g.car && r.fuels == g.fuels && r.obstacles == g.obstacles
    ensures r.remainingTime == g.remainingTime && r.reason == g.reason && r.isGameOver == g.isGameOver
    ensures r.paused == g.paused && r.obstacleInterval == g.obstacleInterval && r.fuelInterval == g.fuelInterval
    ensures r.timers == g.timers.(doubleScore := r.timers.doubleScore, shield := r.timers.shield)
    ensures r.score >= g.score
    ensures r.doubleScore ==> r.timers.doubleScore < DoubleScoreMs
    ensures r.shield ==> r.timers.shield < ShieldMs
    ensures Collected(g.bonuses, g.car, collides, Shield) ==> r.shield && r.timers.shield == 0
    ensures !Collected(g.bonuses, g.car, collides, Shield) ==>
      r.timers.shield == g.timers.shield && (r.shield <==> g.shield && g.timers.shield < ShieldMs)
    ensures Collected(g.bonuses, g.car, collides, Star) ==> r.doubleScore && r.timers.doubleScore == 0
    ensures !Collected(g.bonuses, g.car, collides, Star) ==>
      r.timers.doubleScore == g.timers.doubleScore && (r.doubleScore <==> g.doubleScore && g.timers.doubleScore < DoubleScoreMs)
    ensures Collected(g.bonuses, g.car, collides, Coin) ==> r.score >= g.score + CoinPoints
    ensures !Collected(g.bonuses, g.car, collides, Coin) ==> r.score == g.score
  {
    ShieldPickup(g.bonuses, g, collides);
    StarPickup(g.bonuses, g, collides);
    CoinPickup(g.bonuses, g, collides);
    var p := BonusPass(g.bonuses, g, collides);
    ExpireBuffs(p.game.(bonuses := p.items))
  }

  /** `CleanupOffscreenBonuses`. */
  function CleanupBonuses(cfg: Config, g: Game): (r: Game)
    ensures r == g.(bonuses := r.bonuses)
    ensures forall b :: b in r.bonuses <==> b in g.bonuses && !Bonuses.Offscreen(cfg, b)
    ensures IsSubsequence(r.bonuses, g.bonuses)
    ensures forall b :: multiset(r.bonuses)[b] == if Bonuses.Offscreen(cfg, b) then 0 else multiset(g.bonuses)[b]
  {
    g.(bonuses := Filter(g.bonuses, (b: Bonuses.Bonus) => !Bonuses.Offscreen(cfg, b)))
  }

  // ---------------------------------------------------------------- end of frame

  /** `ApplyTimeoutRule`: more whole seconds elapsed than the time budget. */
  function ApplyTimeoutRule(g: Game): (r: Game)
    ensures r == g.(reason := r.reason)
    ensures ElapsedSec(g.timers) > g.remainingTime ==> r.reason == TimeOut
    ensures ElapsedSec(g.timers) <= g.remainingTime ==> r == g
  {
    if ElapsedSec(g.timers) > g.remainingTime then g.(reason := TimeOut) else g
  }

  /** `ApplyFuelDrainRule`: two fuel per whole second, floored at zero. */
  function ApplyFuelDrainRule(g: Game): (r: Game)
    ensures r == g.(car := r.car, timers := g.timers.(fuelDrain := r.timers.fuelDrain))
    ensures r.car == g.car.(fuel := r.car.fuel)
    ensures g.timers.fuelDrain / 1000 >= FuelDrainEverySec ==>
      r.car.fuel == Max(0, g.car.fuel - FuelDrainAmountPerTick) && r.timers.fuelDrain == 0
    ensures g.timers.fuelDrain / 1000 < FuelDrainEverySec ==> r == g
  {
    if g.timers.fuelDrain / 1000 >= FuelDrainEverySec then
      g.(car := g.car.(fuel := Max(0, g.car.fuel - FuelDrainAmountPerTick)),
         timers := g.timers.(fuelDrain := 0))
    else g
  }

  /** The check after the drain: an empty tank overrides any timeout reason. */
  function ApplyOutOfFuelRule(g: Game): (r: Game)
    ensures r == g.(reason := r.reason)
    ensures g.car.fuel <= 0 ==> r.reason == OutOfFuel
    ensures g.car.fuel > 0 ==> r == g
  {
    if g.car.fuel <= 0 then g.(reason := OutOfFuel) else g
  }

  /** Obstacles that still look as they did when spawned: speed 5, one of the three images. */
  predicate AtSpawnSpeed(os: seq<Obstacles.Obstacle>)
  {
    forall o :: o in os ==> o.speed == Obstacles.InitialSpeed && 1 <= o.variant <= 3
  }

  /** The first stages of `Update`: clamp the car into the lane, then ratchet the intervals. */
  function PrepareFrame(cfg: Config, g: Game): (r: Game)
    ensures r == g.(car := r.car, obstacleInterval := r.obstacleInterval, fuelInterval := r.fuelInterval)
    ensures r.car == Cars.StayOnWindow(cfg, g.car)
    ensures r.car.fuel == g.car.fuel
    ensures r.obstacleInterval != g.obstacleInterval || r.fuelInterval != g.fuelInterval ==> RampSecond(g.timers)
    ensures g.obstacleInterval >= ObstacleSpawnMsMin ==> ObstacleSpawnMsMin <= r.obstacleInterval <= g.obstacleInterval
    ensures g.fuelInterval >= FuelSpawnMsMin ==> FuelSpawnMsMin <= r.fuelInterval <= g.fuelInterval
    ensures RampSecond(g.timers) && g.obstacleInterval > ObstacleSpawnMsMin ==> r.obstacleInterval < g.obstacleInterval
    ensures RampSecond(g.timers) && g.fuelInterval > FuelSpawnMsMin ==> r.fuelInterval < g.fuelInterval
  {
    AdjustDifficulty(g.(car := Cars.StayOnWindow(cfg, g.car)))
  }

  /** The obstacle stages of `Update`: spawn, then move and collide the
      obstacles and drop those below the window. The speed-step guard reads the
      obstacle timer just after the spawn test reset it or found it not past the
      interval, so no obstacle speeds up. */
  function ObstaclePhase(cfg: Config, g: Game, d: Draws, collides: Collides): (r: Game)
    requires RoadFits(cfg)
    ensures r.timers.game == g.timers.game && r.paused == g.paused && r.isGameOver == g.isGameOver
    ensures r.reason == g.reason && r.remainingTime == g.remainingTime && r.shield == g.shield
    ensures r.obstacleInterval == g.obstacleInterval && r.fuelInterval == g.fuelInterval
    ensures r.car.fuel == g.car.fuel || r.car.fuel == Max(0, g.car.fuel - CollisionFuelPenalty)
    ensures g.shield ==> r.car.fuel == g.car.fuel
    ensures g.obstacleInterval >= 0 && AtSpawnSpeed(g.obstacles) ==> AtSpawnSpeed(r.obstacles)
    ensures HitTimerKept(g, r)
    ensures g.obstacleInterval >= 0 && PenaltyReady(g) && ObstacleHit(g.obstacles, g.car, collides) ==>
      && r.car.fuel == Max(0, g.car.fuel - CollisionFuelPenalty)
      && r.timers.hit == 0
      && r.texts == g.texts + [FloatingText(FuelLost(CollisionFuelPenalty), g.car.x, g.car.y - 20, TextLifetime)]
  {
    // The stages are reasoned about through their contracts alone.
    hide TrySpawnObstacle, TrySpawnFuel, UpdateObstacles, CleanupObstacles;
    var g3 := TrySpawnObstacle(cfg, g, d);
    var g4 := TrySpawnFuel(cfg, g3, d);
    var g5 := UpdateObstacles(g4, collides);
    SpawnSpeedKept(cfg, g, d, collides);
    PhaseHitPenalised(cfg, g, d, collides);
    CleanupObstacles(cfg, g5)
  }

  /** Some obstacle already on the road touches the car once it has fallen. */
  predicate ObstacleHit(os: seq<Obstacles.Obstacle>, c: Cars.Car, collides: Collides)
  {
    exists i :: 0 <= i < |os| && HitsCar(collides, c, Obstacles.Update(os[i]))
  }

  /** The penalty half of `ObstaclePhase`: spawning only appends, and the
      obstacles on the road fall without speeding up, so one of them touching
      the car with the gate open is penalised. */
  lemma SpawnedHitPenalised(cfg: Config, g: Game, d: Draws, collides: Collides)
    requires RoadFits(cfg)
    ensures var g4 := TrySpawnFuel(cfg, TrySpawnObstacle(cfg, g, d), d);
      g.obstacleInterval >= 0 && PenaltyReady(g) && ObstacleHit(g.obstacles, g.car, collides) ==>
        UpdateObstacles(g4, collides) == Penalise(g4).(obstacles := UpdateObstacles(g4, collides).obstacles)
  {
    var g4 := TrySpawnFuel(cfg, TrySpawnObstacle(cfg, g, d), d);
    if g.obstacleInterval >= 0 && PenaltyReady(g) && ObstacleHit(g.obstacles, g.car, collides) {
      var i :| 0 <= i < |g.obstacles| && HitsCar(collides, g.car, Obstacles.Update(g.obstacles[i]));
      SpawnKeepsRoad(cfg, g, d, i);
      MovedObstacle(g4, collides, i);
    }
  }

  /** The spawn stages append at the end and leave the car, the hit timer and
      the shield alone; past a non-negative interval the obstacle timer is reset. */
  lemma SpawnKeepsRoad(cfg: Config, g: Game, d: Draws, i: nat)
    requires RoadFits(cfg)
    requires i < |g.obstacles|
    ensures var g4 := TrySpawnFuel(cfg, TrySpawnObstacle(cfg, g, d), d);
      && i < |g4.obstacles| && g4.obstacles[i] == g.obstacles[i]
      && g4.car == g.car && (PenaltyReady(g4) <==> PenaltyReady(g))
      && (g.obstacleInterval >= 0 ==> !ObstacleDue(g4))
  {
  }

  /** An obstacle that is not sped up is, after `UpdateObstacles`, its fallen self. */
  lemma MovedObstacle(g: Game, collides: Collides, i: nat)
    requires i < |g.obstacles| && !ObstacleDue(g)
    ensures UpdateObstacles(g, collides).obstacles[i] == Obstacles.Update(g.obstacles[i])
  {
  }

  /** `SpawnedHitPenalised` carried through the clean-up: the penalty shows
      in the phase's result. */
  lemma PhaseHitPenalised(cfg: Config, g: Game, d: Draws, collides: Collides)
    requires RoadFits(cfg)
    ensures var r := CleanupObstacles(cfg, UpdateObstacles(TrySpawnFuel(cfg, TrySpawnObstacle(cfg, g, d), d), collides));
      g.obstacleInterval >= 0 && PenaltyReady(g) && ObstacleHit(g.obstacles, g.car, collides) ==>
        && r.car.fuel == Max(0, g.car.fuel - CollisionFuelPenalty)
        && r.timers.hit == 0
        && r.texts == g.texts + [FloatingText(FuelLost(CollisionFuelPenalty), g.car.x, g.car.y - 20, TextLifetime)]
  {
    hide TrySpawnObstacle, TrySpawnFuel, UpdateObstacles, CleanupObstacles, Penalise;
    var g4 := TrySpawnFuel(cfg, TrySpawnObstacle(cfg, g, d), d);
    var g5 := UpdateObstacles(g4, collides);
    SpawnedHitPenalised(cfg, g, d, collides);
    if g.obstacleInterval >= 0 && PenaltyReady(g) && ObstacleHit(g.obstacles, g.car, collides) {
      assert g4.car == g.car && g4.texts == g.texts;
      PenaltyKeptByCleanup(cfg, g4, g5);
    }
  }

  /** Dropping obstacles leaves a penalty's other effects in place. */
  lemma PenaltyKeptByCleanup(cfg: Config, g: Game, g5: Game)
    requires g5 == Penalise(g).(obstacles := g5.obstacles)
    ensures var r := CleanupObstacles(cfg, g5);
      && r.car.fuel == Max(0, g.car.fuel - CollisionFuelPenalty)
      && r.timers.hit == 0
      && r.texts == g.texts + [FloatingText(FuelLost(CollisionFuelPenalty), g.car.x, g.car.y - 20, TextLifetime)]
  {
    hide CleanupObstacles, Penalise;
  }

  /** The speed half of `ObstaclePhase`: after the spawn test the obstacle timer
      is not past the interval, so the moved obstacles keep their spawn speed. */
  lemma SpawnSpeedKept(cfg: Config, g: Game, d: Draws, collides: Collides)
    requires RoadFits(cfg)
    ensures var g4 := TrySpawnFuel(cfg, TrySpawnObstacle(cfg, g, d), d);
      g.obstacleInterval >= 0 && AtSpawnSpeed(g.obstacles) ==> AtSpawnSpeed(UpdateObstacles(g4, collides).obstacles)
  {
    var g4 := TrySpawnFuel(cfg, TrySpawnObstacle(cfg, g, d), d);
    var g5 := UpdateObstacles(g4, collides);
    if g.obstacleInterval >= 0 && AtSpawnSpeed(g.obstacles) {
      SpawnedAtSpawnSpeed(cfg, g, d);
      forall o | o in g5.obstacles
        ensures o.speed == Obstacles.InitialSpeed && 1 <= o.variant <= 3
      {
        var i :| 0 <= i < |g5.obstacles| && g5.obstacles[i] == o;
        MovedObstacle(g4, collides, i);
        assert g4.obstacles[i] in g4.obstacles;
      }
    }
  }

  /** A spawned obstacle starts at the spawn speed with one of the three images,
      and past a non-negative interval the spawn test leaves the timer not due. */
  lemma SpawnedAtSpawnSpeed(cfg: Config, g: Game, d: Draws)
    requires RoadFits(cfg)
    requires g.obstacleInterval >= 0 && AtSpawnSpeed(g.obstacles)
    ensures var g4 := TrySpawnFuel(cfg, TrySpawnObstacle(cfg, g, d), d);
      AtSpawnSpeed(g4.obstacles) && !ObstacleDue(g4)
  {
  }

  /** The fuel stages of `Update`: the pickup loop with the text lifetimes, then
      the cans below the window are dropped. */
  function FuelPhase(cfg: Config, g: Game, collides: Collides): (r: Game)
    ensures r == g.(fuels := r.fuels, car := r.car, remainingTime := r.remainingTime, texts := r.texts)
    ensures r.car.fuel >= g.car.fuel && r.remainingTime >= g.remainingTime
  {
    CleanupFuels(cfg, UpdateFuels(g, collides))
  }

  /** The bonus stages of `Update`: spawn, collect and expire, clean up. */
  function BonusPhase(cfg: Config, g: Game, d: Draws, collides: Collides): (r: Game)
    ensures r.car == g.car && r.obstacles == g.obstacles && r.fuels == g.fuels
    ensures r.timers.game == g.timers.game && r.paused == g.paused && r.isGameOver == g.isGameOver
    ensures r.reason == g.reason && r.remainingTime == g.remainingTime
    ensures r.obstacleInterval == g.obstacleInterval && r.fuelInterval == g.fuelInterval
    ensures r.doubleScore ==> r.timers.doubleScore < DoubleScoreMs
    ensures r.shield ==> r.timers.shield < ShieldMs
    ensures r.timers.hit == g.timers.hit
  {
    CleanupBonuses(cfg, UpdateBonuses(TrySpawnBonus(cfg, g, d), collides))
  }

  /** The closing stages of `Update`: timeout rule, fuel drain, the empty-tank
      check, and the score overwritten by the elapsed whole seconds. */
  function EndOfFrame(g: Game): (r: Game)
    ensures r.obstacles == g.obstacles && r.remainingTime == g.remainingTime
    ensures r.obstacleInterval == g.obstacleInterval && r.fuelInterval == g.fuelInterval
    ensures r.timers.game == g.timers.game && r.paused == g.paused && r.isGameOver == g.isGameOver
    ensures r.score == ElapsedSec(g.timers)
    ensures r.car.fuel == g.car.fuel || r.car.fuel == Max(0, g.car.fuel - FuelDrainAmountPerTick)
    ensures r.timers.hit == g.timers.hit
    ensures g.reason == NoReason ==>
      && (r.reason == OutOfFuel <==> r.car.fuel <= 0)
      && (r.reason == TimeOut <==> r.car.fuel > 0 && ElapsedSec(g.timers) > r.remainingTime)
  {
    var g1 := ApplyTimeoutRule(g);
    var g2 := ApplyFuelDrainRule(g1);
    var g3 := ApplyOutOfFuelRule(g2);
    g3.(score := ElapsedSec(g3.timers))
  }

  /** The body of `Update` after its early returns, in the source's order. The
      score ends as the elapsed whole seconds, coins or not; the game-over reason
      is decided by the final fuel and time budget alone; one frame costs at most
      one collision penalty and one drain tick. */
  function Simulate(cfg: Config, g: Game, d: Draws, collides: Collides): (r: Game)
    requires RoadFits(cfg)
    ensures r.timers.game == g.timers.game
    ensures r.paused == g.paused && r.isGameOver == g.isGameOver
    ensures r.score == ElapsedSec(g.timers)
    ensures r.remainingTime >= g.remainingTime
    ensures g.reason == NoReason ==>
      && (r.reason == OutOfFuel <==> r.car.fuel <= 0)
      && (r.reason == TimeOut <==> r.car.fuel > 0 && ElapsedSec(g.timers) > r.remainingTime)
    ensures g.car.fuel >= 0 ==> r.car.fuel >= Max(0, g.car.fuel - CollisionFuelPenalty - FuelDrainAmountPerTick)
    ensures g.car.fuel >= 0 && g.shield ==> r.car.fuel >= Max(0, g.car.fuel - FuelDrainAmountPerTick)
    ensures r.obstacleInterval != g.obstacleInterval || r.fuelInterval != g.fuelInterval ==> RampSecond(g.timers)
    ensures g.obstacleInterval >= ObstacleSpawnMsMin ==> ObstacleSpawnMsMin <= r.obstacleInterval <= g.obstacleInterval
    ensures g.fuelInterval >= FuelSpawnMsMin ==> FuelSpawnMsMin <= r.fuelInterval <= g.fuelInterval
    ensures RampSecond(g.timers) && g.obstacleInterval > ObstacleSpawnMsMin ==> r.obstacleInterval < g.obstacleInterval
    ensures RampSecond(g.timers) && g.fuelInterval > FuelSpawnMsMin ==> r.fuelInterval < g.fuelInterval
    ensures g.obstacleInterval >= ObstacleSpawnMsMin && AtSpawnSpeed(g.obstacles) ==> AtSpawnSpeed(r.obstacles)
    ensures HitTimerKept(g, r)
    ensures (g.obstacleInterval >= ObstacleSpawnMsMin && PenaltyReady(g)
             && ObstacleHit(g.obstacles, Cars.StayOnWindow(cfg, g.car), collides)) ==> r.timers.hit == 0
  {
    // The stages are reasoned about through their contracts alone.
    hide PrepareFrame, ObstaclePhase, FuelPhase, BonusPhase, EndOfFrame;
    var g0 := PrepareFrame(cfg, g);
    var g1 := ObstaclePhase(cfg, g0, d, collides);
    var g2 := FuelPhase(cfg, g1, collides);
    var g3 := BonusPhase(cfg, g2, d, collides);
    EndOfFrame(g3)
  }

  /** `Update`: nothing happens while paused or after game over; a pending
      game-over reason ends the game on the next frame; otherwise simulate. */
  function Update(cfg: Config, g: Game, d: Draws, collides: Collides): (r: Game)
    requires RoadFits(cfg)
    ensures g.paused || g.isGameOver ==> r == g
    ensures !g.paused && !g.isGameOver && g.reason != NoReason ==> r == g.(isGameOver := true)
    ensures r.timers.game == g.timers.game && r.paused == g.paused
    ensures r.isGameOver ==> r.reason != NoReason || g.isGameOver
    ensures HitTimerKept(g, r)
  {
    if g.paused || g.isGameOver then g
    else if g.reason != NoReason then g.(isGameOver := true)
    else Simulate(cfg, g, d, collides)
  }

  /** Everything one iteration of the main loop consumes. */
  datatype Frame = Frame(dt: nat, keys: Keys, draws: Draws, collides: Collides)

  /** One iteration of the main loop: time passes, then `HandleInput`, then `Update`.
      The clock reading the frame adds is the one taken before `P` is read. */
  function Step(cfg: Config, g: Game, f: Frame): (r: Game)
    requires RoadFits(cfg)
    ensures r.paused <==> g.paused != f.keys.pauseTyped
    ensures r.timers.game == g.timers.game + (if g.paused then 0 else f.dt)
    ensures g.isGameOver ==> r.isGameOver && r.reason == g.reason
  {
    Update(cfg, HandleInput(cfg, AdvanceClock(g, f.dt), f.keys), f.draws, f.collides)
  }

  /** The main loop over a sequence of frames. */
  function Run(cfg: Config, g: Game, fs: seq<Frame>): (r: Game)
    requires RoadFits(cfg)
    ensures r.timers.game == g.timers.game + UnpausedTime(cfg, g, fs)
    ensures g.isGameOver ==> r.isGameOver && r.reason == g.reason
    decreases |fs|
  {
    if fs == [] then g else Run(cfg, Step(cfg, g, fs[0]), fs[1..])
  }

  /** The milliseconds a run of frames adds to the timer bank: a frame's `dt`
      counts when the session is unpaused as the frame starts. */
  function UnpausedTime(cfg: Config, g: Game, fs: seq<Frame>): nat
    requires RoadFits(cfg)
    decreases |fs|
  {
    if fs == [] then 0
    else (if g.paused then 0 else fs[0].dt) + UnpausedTime(cfg, Step(cfg, g, fs[0]), fs[1..])
  }
}

=== FILE: obstacle.dfy ===
/** A falling obstacle: one of three images, a position and a downward speed. */
module Obstacles {
  import opened Sprites
  import Rng

  const InitialSpeed := 5

  datatype Obstacle = Obstacle(variant: int, x: int, y: int, speed: int)

  /** `PickRandomSprite`: `Random.Next(1, 4)` chooses image 1, 2 or 3. */
  function PickVariant(draw: nat): (v: int)
    ensures 1 <= v <= 3
  {
    Rng.Next(1, 4, draw)
  }

  /** Each of the three images can come up. */
  lemma EveryVariantDrawable(v: int)
    requires 1 <= v <= 3
    ensures PickVariant(v - 1) == v
  {
  }

  function Image(o: Obstacle): Sprite
  {
    ObstacleImage(o.variant)
  }

  function BodyOf(o: Obstacle): Body
  {
    Body(Image(o), o.x, o.y)
  }

  /** `new Obstacle(window)`: the image is drawn first, then x in
      [200, width - imageWidth - 200); the obstacle starts just above the top
      edge at speed 5. The range must be legal, hence the precondition. */
  function New(cfg: Config, variantDraw: nat, xDraw: nat): (o: Obstacle)
    requires FitsRoad(cfg, ObstacleImage(PickVariant(variantDraw)))
    ensures 1 <= o.variant <= 3
    ensures o.speed == InitialSpeed
    ensures o.y + Height(cfg, Image(o)) == 0
    ensures RoadMargin <= o.x
    ensures o.x < cfg.width - Width(cfg, Image(o)) - RoadMargin
         || o.x == RoadMargin == cfg.width - Width(cfg, Image(o)) - RoadMargin
  {
    var v := PickVariant(variantDraw);
    var d := DimsOf(cfg, ObstacleImage(v));
    Obstacle(v, Rng.Next(RoadMargin, cfg.width - d.width - RoadMargin, xDraw), -(d.height as int), InitialSpeed)
  }

  /** `Obstacle.Update`: the obstacle falls by its current speed; nothing else moves. */
  function Update(o: Obstacle): (r: Obstacle)
    ensures r == o.(y := r.y)
    ensures r.y - o.y == o.speed
  {
    o.(y := o.y + o.speed)
  }
}

=== FILE: properties.dfy ===
/** Properties of the frame step: an invariant every reachable session keeps,
    and the laws one frame obeys. */
module GameplayProperties {
  import opened Seqs
  import opened Sprites
  import Cars
  import Obstacles
  import opened Gameplay

  /** What holds of every session from construction on: the tank is never
      negative, the intervals stay between their floors and defaults, obstacles
      keep their spawn speed and one of the three images, the time budget never
      shrinks below its start, and game over always has a reason. */
  predicate Inv(g: Game)
  {
    && g.car.fuel >= 0
    && ObstacleSpawnMsMin <= g.obstacleInterval <= ObstacleSpawnMsDefault
    && FuelSpawnMsMin <= g.fuelInterval <= FuelSpawnMsDefault
    && AtSpawnSpeed(g.obstacles)
    && g.remainingTime >= InitialTimeSeconds
    && (g.isGameOver ==> g.reason != NoReason)
  }

  lemma NewGameSatisfiesInv(cfg: Config, carType: string)
    ensures Inv(NewGame(cfg, carType))
    ensures !NewGame(cfg, carType).isGameOver
  {
  }

  lemma UpdatePreservesInv(cfg: Config, g: Game, d: Draws, collides: Collides)
    requires RoadFits(cfg)
    requires Inv(g)
    ensures Inv(Update(cfg, g, d, collides))
  {
    hide Simulate;
  }

  lemma StepPreservesInv(cfg: Config, g: Game, f: Frame)
    requires RoadFits(cfg)
    requires Inv(g)
    ensures Inv(Step(cfg, g, f))
  {
    UpdatePreservesInv(cfg, HandleInput(cfg, AdvanceClock(g, f.dt), f.keys), f.draws, f.collides);
  }

  /** Any number of frames keeps the invariant; in particular fuel never goes
      negative and the spawn intervals never leave their ranges. */
  lemma {:induction false} RunPreservesInv(cfg: Config, g: Game, fs: seq<Frame>)
    requires RoadFits(cfg)
    requires Inv(g)
    ensures Inv(Run(cfg, g, fs))
    decreases |fs|
  {
    if fs != [] {
      StepPreservesInv(cfg, g, fs[0]);
      RunPreservesInv(cfg, Step(cfg, g, fs[0]), fs[1..]);
    }
  }

  /** Game over is terminal: once set, no sequence of frames clears it, and the
      entities, score, fuel and reason are frozen. */
  lemma {:induction false} GameOverIsTerminal(cfg: Config, g: Game, fs: seq<Frame>)
    requires RoadFits(cfg)
    requires g.isGameOver
    ensures var r := Run(cfg, g, fs);
      && r.isGameOver && r.reason == g.reason && r.score == g.score
      && r.car.fuel == g.car.fuel && r.obstacles == g.obstacles && r.fuels == g.fuels
      && r.bonuses == g.bonuses && r.remainingTime == g.remainingTime
    decreases |fs|
  {
    if fs != [] {
      var h := HandleInput(cfg, AdvanceClock(g, fs[0].dt), fs[0].keys);
      assert Step(cfg, g, fs[0]) == h;
      GameOverIsTerminal(cfg, h, fs[1..]);
    }
  }

  /** The collision cooldown across frames. While the cooldown timer's reading
      plus the unpaused time stays below 800 ms, no frame of the run applies a
      penalty: the timer is never restarted and only counts up. A penalised
      frame leaves the timer at 0, so the next penalty needs 800 ms of play. */
  lemma {:induction false} PenaltyCooldown(cfg: Config, g: Game, fs: seq<Frame>)
    requires RoadFits(cfg)
    requires g.timers.hit + UnpausedTime(cfg, g, fs) < CollisionCooldownMs
    ensures Run(cfg, g, fs).timers.hit == g.timers.hit + UnpausedTime(cfg, g, fs)
    decreases |fs|
  {
    if fs != [] {
      var a := HandleInput(cfg, AdvanceClock(g, fs[0].dt), fs[0].keys);
      assert a.timers.hit == g.timers.hit + (if g.paused then 0 else fs[0].dt);
      assert !PenaltyReady(a);
      PenaltyCooldown(cfg, Step(cfg, g, fs[0]), fs[1..]);
    }
  }

  /** A pending reason ends the game on the very next unpaused frame, whatever
      that frame brings. */
  lemma ReasonEndsGameNextFrame(cfg: Config, g: Game, f: Frame)
    requires RoadFits(cfg)
    requires g.reason != NoReason && !g.isGameOver
    requires g.paused == f.keys.pauseTyped
    ensures Step(cfg, g, f).isGameOver
  {
  }

  const PauseKey := Keys(true, false, false)

  /** Typing P twice restores the state exactly. */
  lemma PauseTwiceRestores(cfg: Config, g: Game)
    ensures HandleInput(cfg, HandleInput(cfg, g, PauseKey), PauseKey) == g
  {
  }

  /** Pausing, letting any amount of time pass, and resuming leaves every timer
      (and everything else) as it was: the timer bank pauses as a whole. */
  lemma PauseFreezesTimers(cfg: Config, g: Game, dt: nat)
    requires !g.paused
    ensures HandleInput(cfg, AdvanceClock(HandleInput(cfg, g, PauseKey), dt), PauseKey) == g
  {
  }

  /** While paused, a frame without the P key changes nothing at all: neither
      the pause flag nor the car moves. */
  lemma PausedFrameChangesNothing(cfg: Config, g: Game, f: Frame)
    requires RoadFits(cfg)
    requires g.paused && !f.keys.pauseTyped
    ensures Step(cfg, g, f) == g
  {
  }

  /** The difficulty ratchet over a frame: the spawn intervals only change on a
      ten-second mark, never go up, never pass their floors, and strictly drop
      on a mark while above the floor. */
  lemma IntervalRatchet(cfg: Config, g: Game, d: Draws, collides: Collides)
    requires RoadFits(cfg)
    requires Inv(g)
    ensures var r := Update(cfg, g, d, collides);
      && (r.obstacleInterval != g.obstacleInterval || r.fuelInterval != g.fuelInterval ==> RampSecond(g.timers))
      && ObstacleSpawnMsMin <= r.obstacleInterval <= g.obstacleInterval
      && FuelSpawnMsMin <= r.fuelInterval <= g.fuelInterval
      && (!g.paused && !g.isGameOver && g.reason == NoReason && RampSecond(g.timers) ==>
           (g.obstacleInterval > ObstacleSpawnMsMin ==> r.obstacleInterval < g.obstacleInterval)
           && (g.fuelInterval > FuelSpawnMsMin ==> r.fuelInterval < g.fuelInterval))
  {
    hide Simulate;
  }

  /** Where the speed step would lead if its guard could fire on every frame:
      5, 8, ..., 29, 32 — the cap of 30 is tested before the step, so the
      speed stops at 32, not 30. */
  function Accelerated(o: Obstacles.Obstacle, frames: nat): Obstacles.Obstacle
  {
    if frames == 0 then o else Accelerate(Accelerated(o, frames - 1), true)
  }

  lemma {:induction false} AcceleratedSpeed(o: Obstacles.Obstacle, frames: nat)
    requires o.speed == Obstacles.InitialSpeed
    ensures Accelerated(o, frames).speed == Min(Obstacles.InitialSpeed + ObstacleSpeedStep * frames, 32)
    ensures Accelerated(o, frames).speed <= ObstacleMaxSpeed + ObstacleSpeedStep - 1
  {
    if frames > 0 {
      AcceleratedSpeed(o, frames - 1);
    }
  }

  /** A coin collected during a frame does not show in the score after it:
      the last line of `Update` replaces the score by the elapsed seconds. */
  lemma CoinGainOverwritten(cfg: Config, g: Game, d: Draws, collides: Collides)
    requires RoadFits(cfg)
    requires !g.paused && !g.isGameOver && g.reason == NoReason
    ensures Update(cfg, g, d, collides).score == ElapsedSec(g.timers)
  {
  }
}

=== FILE: rng.dfy ===
/** The random source, reduced to the contract of `System.Random.Next(lo, hi)`:
    the generator's output is a per-call input `draw`, and the model only fixes
    how a draw is turned into a value of the requested range. */
module Rng {

  /** `Random.Next(lo, hi)`: a value in the half-open range [lo, hi), or `lo`
      itself when the range is empty (`lo == hi`). .NET throws when `lo > hi`,
      which is why callers must establish `lo <= hi`. */
  function Next(lo: int, hi: int, draw: nat): (r: int)
    requires lo <= hi
    ensures lo == hi ==> r == lo
    ensures lo < hi ==> lo <= r < hi
  {
    if lo == hi then lo else lo + draw % (hi - lo)
  }

  /** No value of the range is out of reach: every one of them is some draw's result. */
  lemma EveryValueDrawable(lo: int, hi: int, v: int)
    requires lo <= v < hi
    ensures exists draw: nat :: Next(lo, hi, draw) == v
  {
    var d: nat := v - lo;
    assert Next(lo, hi, d) == v;
  }
}

=== FILE: seqs.dfy ===
/** Small sequence and integer helpers shared by the game model. */
module Seqs {

  function Max(a: int, b: int): int
  {
    if a >= b then a else b
  }

  function Min(a: int, b: int): int
  {
    if a <= b then a else b
  }

  function Abs(a: int): nat
  {
    if a >= 0 then a else -a
  }

  /** `f` applied to every element, in order. */
  function Map<T, U>(s: seq<T>, f: T -> U): (r: seq<U>)
    ensures |r| == |s|
    ensures forall i :: 0 <= i < |s| ==> r[i] == f(s[i])
  {
    seq(|s|, i requires 0 <= i < |s| => f(s[i]))
  }

  lemma ConcatAssoc<T>(a: seq<T>, b: seq<T>, c: seq<T>)
    ensures (a + b) + c == a + (b + c)
  {
  }

  /** A non-empty sequence is its head followed by its tail, as a multiset too. */
  lemma HeadTail<T>(s: seq<T>)
    requires s != []
    ensures s == [s[0]] + s[1..]
    ensures multiset(s) == multiset{s[0]} + multiset(s[1..])
    ensures forall x :: x in s <==> x == s[0] || x in s[1..]
  {
    assert s == [s[0]] + s[1..];
  }

  /** `r` is `s` with some elements left out: the ones it keeps appear in
      their original relative order. */
  predicate IsSubsequence<T(==)>(r: seq<T>, s: seq<T>)
    decreases |s|
  {
    if r == [] then true
    else if s == [] then false
    else (r[0] == s[0] && IsSubsequence(r[1..], s[1..])) || IsSubsequence(r, s[1..])
  }

  /** The elements of `s` that satisfy `keep`, in their original order:
      what `List.RemoveAll` leaves behind when it removes the complement.
      Order is kept (a subsequence) and so is multiplicity (every kept value
      occurs as often as in `s`, every other value not at all). */
  function Filter<T(==,!new)>(s: seq<T>, keep: T -> bool): (r: seq<T>)
    ensures |r| <= |s|
    ensures forall x :: x in r <==> x in s && keep(x)
    ensures IsSubsequence(r, s)
    ensures forall x :: multiset(r)[x] == if keep(x) then multiset(s)[x] else 0
    ensures (forall i :: 0 <= i < |s| ==> keep(s[i])) ==> r == s
  {
    if s == [] then []
    else
      var rest := Filter(s[1..], keep);
      HeadTail(s);
      if keep(s[0]) then
        var r := [s[0]] + rest;
        assert r[1..] == rest;
        r
      else rest
  }

  /** A subsequence never holds a value more often than the sequence it comes from. */
  lemma {:induction false} SubsequenceCounts<T>(r: seq<T>, s: seq<T>)
    requires IsSubsequence(r, s)
    ensures multiset(r) <= multiset(s)
    decreases |s|
  {
    if r != [] {
      assert s == [s[0]] + s[1..];
      if r[0] == s[0] && IsSubsequence(r[1..], s[1..]) {
        SubsequenceCounts(r[1..], s[1..]);
        assert r == [r[0]] + r[1..];
      } else {
        SubsequenceCounts(r, s[1..]);
      }
    }
  }

  /** `Filter` is the only order-keeping selection with its multiplicities:
      any subsequence of `s` holding exactly the kept occurrences is `Filter(s, keep)`. */
  lemma {:induction false} FilterUnique<T(!new)>(r: seq<T>, s: seq<T>, keep: T -> bool)
    requires IsSubsequence(r, s)
    requires forall x :: multiset(r)[x] == if keep(x) then multiset(s)[x] else 0
    ensures r == Filter(s, keep)
    decreases |s|
  {
    if s == [] {
    } else {
      assert s == [s[0]] + s[1..];
      var x0 := s[0];
      if keep(x0) {
        assert multiset(r)[x0] == multiset(s)[x0] > multiset(s[1..])[x0];
        if !(r != [] && r[0] == x0 && IsSubsequence(r[1..], s[1..])) {
          SubsequenceCounts(r, s[1..]);
          assert false;
        }
        assert r == [r[0]] + r[1..];
        FilterUnique(r[1..], s[1..], keep);
      } else {
        assert x0 !in r by { assert multiset(r)[x0] == 0; }
        if r != [] {
          assert r[0] in r;
        }
        FilterUnique(r, s[1..], keep);
      }
    }
  }

  /** Elements may be put in front of the sequence a subsequence is taken from. */
  lemma {:induction false} SubsequenceOfLonger<T>(r: seq<T>, s: seq<T>, t: seq<T>)
    requires IsSubsequence(r, t)
    ensures IsSubsequence(r, s + t)
    decreases |s|
  {
    if s != [] && r != [] {
      assert (s + t)[1..] == s[1..] + t;
      SubsequenceOfLonger(r, s[1..], t);
    } else if s == [] {
      assert s + t == t;
    }
  }

  /** Subsequences of two parts concatenate to a subsequence of the whole. */
  lemma {:induction false} SubsequenceConcat<T>(r: seq<T>, s: seq<T>, u: seq<T>, t: seq<T>)
    requires IsSubsequence(r, s) && IsSubsequence(u, t)
    ensures IsSubsequence(r + u, s + t)
    decreases |s|
  {
    if r == [] {
      assert r + u == u;
      SubsequenceOfLonger(u, s, t);
    } else {
      assert (s + t)[0] == s[0] && (s + t)[1..] == s[1..] + t;
      assert (r + u)[0] == r[0] && (r + u)[1..] == r[1..] + u;
      if r[0] == s[0] && IsSubsequence(r[1..], s[1..]) {
        SubsequenceConcat(r[1..], s[1..], u, t);
      } else {
        SubsequenceConcat(r, s[1..], u, t);
      }
    }
  }

  /** One step of `Filter`: the head is kept or dropped, then the tail is filtered. */
  lemma FilterCons<T(!new)>(s: seq<T>, keep: T -> bool)
    requires s != []
    ensures Filter(s, keep) == (if keep(s[0]) then [s[0]] else []) + Filter(s[1..], keep)
  {
  }

  /** Filtering a concatenation filters each part, in order. */
  lemma FilterConcat<T(!new)>(s: seq<T>, t: seq<T>, keep: T -> bool)
    ensures Filter(s + t, keep) == Filter(s, keep) + Filter(t, keep)
  {
    var r := Filter(s, keep) + Filter(t, keep);
    SubsequenceConcat(Filter(s, keep), s, Filter(t, keep), t);
    assert multiset(r) == multiset(Filter(s, keep)) + multiset(Filter(t, keep));
    assert multiset(s + t) == multiset(s) + multiset(t);
    FilterUnique(r, s + t, keep);
  }
}

=== FILE: sprites.dfy ===
/** Window and sprite geometry. Bitmap sizes come from image files the model
    cannot see, so they are gathered into a `Config` the session is built with. */
module Sprites {

  datatype Dims = Dims(width: nat, height: nat)

  /** The two car images ("F1" selects f1_car.png, anything else racing_car.png). */
  datatype CarKind = F1 | Racing

  datatype FuelKind = Small | Large

  datatype BonusKind = Star | Shield | Coin

  /** The images the game draws and tests for collisions. An obstacle image is
      chosen by its variant number; 1 and 2 have their own file, every other
      number shows o_3.png. */
  datatype Sprite =
    | CarImage(car: CarKind)
    | ObstacleImage(variant: int)
    | FuelImage(fuel: FuelKind)
    | BonusImage(bonus: BonusKind)

  datatype Config = Config(
    width: nat, height: nat,
    f1Car: Dims, racingCar: Dims,
    obstacle1: Dims, obstacle2: Dims, obstacle3: Dims,
    fuelSmall: Dims, fuelLarge: Dims,
    star: Dims, shield: Dims, coin: Dims)

  function DimsOf(cfg: Config, s: Sprite): Dims
  {
    match s
    case CarImage(F1) => cfg.f1Car
    case CarImage(Racing) => cfg.racingCar
    case ObstacleImage(v) =>
      if v == 1 then cfg.obstacle1 else if v == 2 then cfg.obstacle2 else cfg.obstacle3
    case FuelImage(Small) => cfg.fuelSmall
    case FuelImage(Large) => cfg.fuelLarge
    case BonusImage(Star) => cfg.star
    case BonusImage(Shield) => cfg.shield
    case BonusImage(Coin) => cfg.coin
  }

  function Width(cfg: Config, s: Sprite): nat
  {
    DimsOf(cfg, s).width
  }

  function Height(cfg: Config, s: Sprite): nat
  {
    DimsOf(cfg, s).height
  }

  /** Margin kept free on both sides when obstacles and fuel cans are placed. */
  const RoadMargin := 200

  /** `Random.Next(200, width - spriteWidth - 200)` has a legal range. */
  predicate FitsRoad(cfg: Config, s: Sprite)
  {
    cfg.width - Width(cfg, s) - RoadMargin >= RoadMargin
  }

  /** Every obstacle image and both fuel images can be placed on the road. */
  predicate RoadFits(cfg: Config)
  {
    && FitsRoad(cfg, ObstacleImage(1))
    && FitsRoad(cfg, ObstacleImage(2))
    && FitsRoad(cfg, ObstacleImage(3))
    && FitsRoad(cfg, FuelImage(Small))
    && FitsRoad(cfg, FuelImage(Large))
  }

  /** A sprite drawn at a position: the arguments of a pixel collision test. */
  datatype Body = Body(sprite: Sprite, x: int, y: int)

  /** The per-frame answer of the pixel-mask collision test between two bodies. */
  type Collides = (Body, Body) -> bool
}
